=== FILE: README.md ===
# shapes-animation: the parallelogram and circle engine in Dafny

`js/index.js` is a browser page. The user clicks three points on a canvas
and the page derives the fourth vertex of a parallelogram. It draws the
parallelogram inside an SVG box that just holds it, and draws a circle of the
same area on its center. Afterwards the first three points can be dragged,
and the window can be resized. Each drag or resize recomputes the fourth
point, the parallelogram and the circle from the first three points.

This project models that engine over exact reals and proves what it
promises:

- **Geometry** (`Parallelograms`, with `Points`, `Sorting` and `Algebra`):
  - the fourth vertex and the center;
  - the bounding box found by sorting;
  - the four edges drawn relative to the box;
  - the area, computed as twice Heron's formula on the three clicked
    points. It equals the cross-product area of the parallelogram and its
    shoelace area.
- **Circle** (`Rounds`): `Round.calculateDiameterFromSquare` and the
  circle's `redraw`.
- **Drag protocol** (`Dots`): `mousedown`, `mouseup`, the two `mousemove`
  handlers and `_move`.
- **Scene** (`Shapes`): the three-click protocol of `_run`, `_redraw`,
  `_resize`, `_destroy` and `reset`, as step functions on an immutable
  state. Every event is one atomic step. The lemmas show that every event
  keeps the scene consistent with its first three dots:
  - the parallelogram is the one built from them;
  - the fourth dot sits on its derived vertex;
  - the circle is on its center with the diameter of equal area.
- **Click listeners** (`ClickListeners`): how the click listeners of `_run`
  survive a `reset`, and how many dots one click then adds. The model
  counts dots and does not track their positions.

The host's `Math.sqrt` is a parameter `sqrt: real -> real` of every
operation that needs it. The lemmas about roots assume only
`Roots.IsSqrt(sqrt)`, i.e. that it returns the non-negative square root of
every non-negative real. `Pi` is the program's `3.14`.

## Model

| member | source | states |
|---|---|---|
| Parallelograms.FindFourthCoord | js/index.js:465-473 | The vertices are the three points unchanged, then a fourth. The center is the midpoint of both diagonals, so the diagonals bisect each other. Opposite sides are equal vectors: p1 - p0 = p2 - p3 and p2 - p1 = p3 - p0. |
| Parallelograms.FourthCoordUnique | js/index.js:465-473 | The derived vertex is the one and only point q with p1 - p0 = p2 - q. |
| Parallelograms.FindSpace | js/index.js:475-481 | Width and height are non-negative. Every vertex lies in the box. Each side of the box touches a vertex, so the corner is the componentwise minimum and corner plus size is the maximum. |
| Parallelograms.Extent | js/index.js:476-480 | The first and the last element of the ascending sort are values of the input, the least and the greatest. |
| Sorting.SortSorted | js/index.js:476-477 | `Sorting.Sort` models `sort((a, b) => a - b)`. The numeric sort returns a sorted permutation of its input. |
| Sorting.SortedUnique | js/index.js:476-477 | Two sorted sequences that hold the same values are equal. So any algorithm that returns a sorted permutation returns this sort's result. |
| Sorting.SortBounds | js/index.js:476-480 | The sort keeps the length. Its first element is an input value no greater than any input, and its last is one no smaller. |
| Parallelograms.NextWraps | js/index.js:517-518 | The point after vertex i is vertex (i + 1) mod n: the last wraps to the first. |
| Parallelograms.SideLengthsOfThree | js/index.js:496-501 | Sides are measured cyclically over the three clicked points only (0-1, 1-2, 2-0). Each is the Euclidean distance. |
| Parallelograms.SquareIsHeron | js/index.js:495-505 | `Parallelograms.CalculateSquare` models `_calculateSquare`. The half perimeter is half the sum of the three sides. The fold seeded with it is Heron's product s(s-a)(s-b)(s-c). The area is twice its root. |
| Parallelograms.HeronOfTriangle | js/index.js:503-504 | For any triangle Heron's product is non-negative. Twice its root is the magnitude of the cross product of two sides. |
| Parallelograms.SquareIsCrossArea | js/index.js:495-505 | The computed area is exactly the area of the parallelogram, abs((p1 - p0) x (p2 - p1)). The root is never taken of a negative number. |
| Parallelograms.SquareIsShoelaceArea | js/index.js:495-505 | The computed area equals the shoelace area of the four vertices in order. |
| Parallelograms.CalculateGeometry | js/index.js:548-552 | The geometry keeps the three points as its part coordinates. Its vertices start with them. Its center is the midpoint of both diagonals. |
| Parallelograms.EdgesFitBox | js/index.js:507-524 | For the geometry of any three points, the box holds all four vertices. There are exactly four edges, and every edge, shifted by the box corner, lies within the element's width and height. |
| Parallelograms.LinesFitSpace | js/index.js:517-545 | `Parallelograms.Lines` models the edge loops of `_draw` and `_updatePosition`. Edge i runs from vertex i to vertex (i + 1) mod n, shifted by the corner. When every vertex lies in the box, every endpoint lies in [0, width] x [0, height]. |
| Parallelograms.ScalingCommutes | js/index.js:465-473 | Scaling the three points per axis scales every derived vertex and the center the same way. |
| Parallelograms.ScalingScalesSquare | js/index.js:495-505 | Scaling the three points by (sx, sy) multiplies the computed area by abs(sx * sy). |
| Parallelograms.GeometryScalesSquare | js/index.js:548-552 | The area the geometry records scales by abs(sx * sy) under a per-axis scaling of its points. |
| Rounds.DiameterGivesArea | js/index.js:173-175 | `Rounds.DiameterFromSquare` models `calculateDiameterFromSquare`. For a non-negative area the diameter is non-negative, and a circle of that diameter has exactly that area (with pi = 3.14). |
| Rounds.AreaGivesDiameter | js/index.js:173-175 | Conversely, the diameter computed from a circle's area is its diameter. |
| Rounds.Redraw | js/index.js:272-280 | The coordinates are always replaced. The size is replaced only by a size that is given and non-zero; otherwise the old size stays. |
| Rounds.LabelSquareAsWrittenIsFourfold | js/index.js:424-426 | As written, the label of a circle sized from an area shows four times that area. |
| Rounds.LabelSquareAsWrittenMismatch | js/index.js:424-426 | For a parallelogram of area 1 the label as written does not show 1. |
| Rounds.LabelSquareIsArea | js/index.js:424-426 | The corrected label of a circle sized from an area shows that area. |
| Dots.Create | js/index.js:287-292 | A new dot sits at the given point, has the size 11 that `_addDot` gives every dot and is not being dragged. |
| Dots.MouseDown | js/index.js:340-343 | Mousedown sets the drag flag and leaves position and size alone. |
| Dots.MouseUp | js/index.js:335-338 | Mouseup clears the drag flag and leaves position and size alone. |
| Dots.Move | js/index.js:326-333 | The dot is centred on the point, keeps its size and flag, and always announces a repaint. |
| Dots.MouseMove | js/index.js:345-354 | A dot that is not dragging is unchanged and announces nothing. A dragging dot moves to its corner plus the offset and announces a repaint. |
| Dots.MousemoveParent | js/index.js:356-360 | A repaint is announced exactly when the dot is dragging and the target is the canvas. Then the dot moves to the offset; otherwise it is unchanged. |
| Dots.ReleasedDotStaysPut | js/index.js:345-360 | A dot that is not dragging stays exactly as it is through any run of moves and mouseups. |
| Dots.DragThenRelease | js/index.js:335-360 | Mousedown then a canvas move leaves the dot dragging under the cursor. A following mouseup ends the drag there. |
| Shapes.Start | js/index.js:36-50 | A new scene has no dots and its click handler is listening. |
| Shapes.DrawCircle | js/index.js:114-129 | It fails exactly when there is no parallelogram. Otherwise the circle is on the parallelogram's center with the diameter computed from its area. |
| Shapes.CircleMatchesArea | js/index.js:116-121 | The circle drawn for the geometry of any three points has the parallelogram's area. |
| Shapes.OnClick | js/index.js:50-87 | The scene invariant is kept. A click after the handler has detached changes nothing. Otherwise it counts the click and appends a new dot at the click point after the existing dots. The canvas is kept. |
| Shapes.ClickKeepsConsistent | js/index.js:65-85 | The third click leaves a consistent scene built from the three dots. |
| Shapes.TwoClicks | js/index.js:50-64 | The first two clicks only add their dots, and the handler keeps listening. |
| Shapes.ThirdClick | js/index.js:65-85 | The third click adds its dot and detaches the handler. It builds the parallelogram from the three points, adds a fourth dot on the derived vertex, and draws the circle on the center with the diameter of equal area. |
| Shapes.RunOfThreeClicks | js/index.js:50-88 | Three click events from the start are the click handler applied three times. |
| Shapes.ThreeClicksBuildTheScene | js/index.js:50-88 | From the start, three clicks give exactly four dots: the three clicked points, then the derived vertex. They also give the parallelogram of those points, the circle of equal area on its center, and a detached handler. |
| Shapes.LaterClicksIgnored | js/index.js:65-67 | Once the handler has detached, any run of clicks leaves the scene as it is. |
| Shapes.Redraw | js/index.js:131-136 | Before the third click it throws and changes nothing. Afterwards the scene is consistent with its first three dots, no dot but the fourth changes, and no fault is raised. |
| Shapes.RedrawOfConsistentIsFixpoint | js/index.js:131-136 | Redrawing a consistent scene changes nothing. |
| Shapes.RedrawIdempotent | js/index.js:131-136 | Redrawing twice is redrawing once. |
| Shapes.ScaleDots | js/index.js:96-99 | Every dot's position is scaled per axis. Sizes and drag flags are kept. |
| Shapes.OnResize | js/index.js:92-103 | The canvas takes the new size and the scene is consistent afterwards. It throws exactly when the third click has not happened yet. The number of dots is kept, and every dot except the derived fourth is its old position scaled per axis, before the third click as well. Every dot keeps its size and its drag flag. |
| Shapes.ResizeToSameSize | js/index.js:92-103 | A resize to the current size leaves a consistent scene unchanged. |
| Shapes.ResizeRebuilds | js/index.js:92-103 | After a resize the first three dots are scaled per axis, and the parallelogram is the one built from the scaled points. |
| Shapes.ResizeScalesDots | js/index.js:92-103 | After a resize every dot, the derived fourth one included, is its old position scaled per axis. Before the third click this holds too, although the redraw throws. |
| Shapes.Destroy | js/index.js:139-147 | No dots, no parallelogram and no circle remain. |
| Shapes.OnReset | js/index.js:149-152 | A reset gives the scene of a fresh start on the same canvas. |
| Shapes.ClickIsListenerClick | js/index.js:50-85 | The scene's click handler behaves as one listener of the listener model, with the scene's dots as the page's dots. Its counter is the click count. It adds the clicked dot while attached, and on the third click it detaches and adds the fourth-vertex dot too. It never throws. |
| Shapes.ResetIsCorrectedReset | js/index.js:149-152 | A link between the two models: the scene's reset is the corrected reset of the listener model, one fresh listener and no dots. |
| Shapes.MouseOnDots | js/index.js:309-360 | Only dots 0 to 2 react to the mouse, and sizes are kept. Without a repaint no dot moves. A repaint comes only from a dot that is dragging. A mousedown on dot i < 3 starts dragging that dot and moves nothing. A mouseup releases dots 0 to 2 and moves nothing. A move over dot i < 3 is that dot's `_mouseMove`, and no other dot changes. |
| Shapes.OnMouse | js/index.js:68-69 | Before the third click the mouse changes nothing. Afterwards no fault is raised and the invariant is kept. The mouse never changes the click count, the click handler, the canvas or the number of dots. After the third click, a mousedown on dot i < 3 starts dragging that dot and a mouseup releases dots 0 to 2; neither moves a dot. |
| Shapes.DragOnCanvas | js/index.js:356-360 | After the third click, a move over the canvas puts every dragging dot among the first three at the cursor and leaves the others where they were, drag flags unchanged. The repaint leaves the scene consistent. |
| Shapes.FlagsKeepConsistent | js/index.js:335-343 | Changing only the drag flags keeps a scene consistent. |
| Shapes.MouseKeepsConsistent | js/index.js:326-333 | Any mouse event leaves a consistent scene consistent, a drag through the redraw its repaint triggers. |
| Shapes.Step | js/index.js:88-89 | Every event keeps the scene invariant. The only fault is a resize before the third click. |
| Shapes.StepKeepsConsistent | js/index.js:131-136 | Every event keeps the scene consistent with its first three dots. |
| Shapes.RunKeepsConsistent | js/index.js:131-136 | Any sequence of events keeps the scene consistent. |
| ClickListeners.DeliverToLive | js/index.js:50-85 | `ClickListeners.Deliver` models one click reaching every attached listener in turn. A click handled by live listeners leaves them live and detaches exactly those that had counted two. Every listener that stays has counted the click: as many are at one as were at zero, as many at two as were at one, and none is at zero. Each listener adds its clicked dot. Each detaching one then either adds the fourth-vertex dot or throws in `_findFouthCoord`, so dots added plus throws equal the listeners plus the detaching ones. Nothing throws when two or more dots were already there. |
| ClickListeners.SingleListener | js/index.js:50-85 | A lone listener, on a page with as many dots as it has counted, adds one dot per click. On its third click it detaches and adds the fourth-vertex dot as well, without throwing. |
| ClickListeners.ResetAsWritten | js/index.js:139-152 | As written, a reset removes the dots and keeps every listener, adding a fresh one with a count of zero. |
| ClickListeners.ResetAsWrittenMultiplies | js/index.js:50-85 | As written, a click after a reset adds at least one dot for every listener left attached, plus one for the fresh listener. |
| ClickListeners.ClickResetClickAddsTwo | js/index.js:149-152 | As written, click, reset, click: the second click adds two dots. |
| ClickListeners.StaleListenersAddFive | js/index.js:50-85 | As written, start, reset, reset, click, click, reset, click: the last click adds five dots and two listeners throw. |
| ClickListeners.ResetCorrectedStartsOver | js/index.js:50-85 | After the corrected reset, whatever came before, the next three clicks add one, one and two dots. The third detaches the listener, and nothing throws. |

## Left out

- DOM and SVG construction, attributes, styles, `Canvas` and `highlight`: they only render. The model keeps positions and sizes, not elements.
- Label text and its layout (`_createText`, `_drawText`, `_redrawText`, `_updateTextPosition`): they depend on the browser's text measurement and on `Math.round`. The circle label's area formula is kept, for the finding below.
- `Round._draw` and `_calculateNodePosition`: pixel offsets computed with `size % 2` on doubles.
- Floating point: all arithmetic is over exact reals. Rounding is not modelled, and neither is the NaN a slightly negative Heron product gives for near-collinear points; over the reals that product is proved non-negative.
- `Math.sqrt` is a parameter, constrained only by `Roots.IsSqrt` in the lemmas that need it.
- `requestAnimationFrame` and the asynchronous `repaint` event: each event is one atomic step, and a repaint runs the redraw once at the end of it. Several repaints run it several times, and by `Shapes.RedrawIdempotent` that is the same.
- Event offsets are taken as given. A click that lands on an existing dot reports an offset relative to that dot; the model does not recompute it.
- The `repaint` listener that every third click adds again: more copies only redraw more often, which changes nothing.
- The modal wiring at js/index.js:610-618.
- Parallelograms.CalculateGeometry: requires exactly three points. In the scene every caller passes the coordinates of exactly three dots. A listener left attached by `reset` can pass one or two coordinates, and then `_findFouthCoord` throws at js/index.js:466. It can also pass more than three, and then the polygon has more vertices. The scene does not model these lists; `ClickListeners` counts only the dots they add and the throws.
- Parallelograms.FindSpace: the box is not stored in the parallelogram record. It is the function `FindSpace` of the vertices, which is all `_findSpace` reads.
- Shapes.OnResize: requires non-zero old and new canvas sizes. A zero old size makes the program divide by zero and place dots at infinite or NaN positions. A zero new size divides by nothing in that step: it puts every dot on an axis, and the next resize then divides by zero. The model keeps the canvas size non-zero in every state so that every resize can divide by it, and `Shapes.Admissible` restricts `Resize` events accordingly.
- Shapes.OnReset: models the evidently intended reset, which starts the click protocol over with a single listener. The program as written keeps earlier listeners attached; that is modelled only in `ClickListeners` (see Findings), where dots are counted but not placed.
- Shapes.MouseOnDots: for a move over the canvas it states only which dots may move and that sizes are kept. `Dots.MousemoveParent` states where each dot goes, and `Shapes.DragOnCanvas` states the move for the whole scene.
- There is no state-level lemma for the resize area. `Shapes.ResizeRebuilds` shows the parallelogram after a resize is built from the scaled points, and `Parallelograms.GeometryScalesSquare` shows that its area is then multiplied by abs(sx * sy).

## Findings

| source | as written | input that shows it | evidently intended | confidence | as-written member | corrected member |
|---|---|---|---|---|---|---|
| js/index.js:424-426 | The circle label's area is `Pi * size ** 2`, but `size` is the circle's diameter. | A parallelogram of area 1: the circle's label reads 4. | `Pi * (size / 2) ** 2`, the circle's area, which is the parallelogram's area. | high; not executed | Rounds.LabelSquareAsWrittenMismatch | Rounds.LabelSquareIsArea |
| js/index.js:149-152 | `reset` calls `_destroy`, which leaves the click listener of `_run` attached, and then `_run` attaches a second one. | Click once, reset, click once: the second click adds two dots at the same point. Start, reset, reset, click, click, reset, click: the last click adds five dots, and two listeners throw. | A reset starts the three-click protocol over with a single listener. | high; not executed | ClickListeners.ClickResetClickAddsTwo | ClickListeners.ResetCorrectedStartsOver |

=== FILE: algebra.dfy ===
/** Polynomial identities behind the area computation: Heron's formula in
    expanded form and Lagrange's identity in the plane. */
module Algebra {
  import opened Points

  /** The symmetric quartic form that Heron's product expands to, in the
      squared side lengths. */
  function HeronForm(A: real, B: real, C: real): real {
    2.0 * A * B + 2.0 * B * C + 2.0 * C * A - A * A - B * B - C * C
  }

  /** Sixteen times Heron's product, expanded in the squared side lengths. */
  lemma HeronExpanded(a: real, b: real, c: real)
    ensures var s := (a + b + c) / 2.0;
      16.0 * (s * (s - a) * (s - b) * (s - c)) == HeronForm(a * a, b * b, c * c)
  {
    var s := (a + b + c) / 2.0;
    var p := s * (s - a);
    var q := (s - b) * (s - c);
    assert 4.0 * p == (b + c) * (b + c) - a * a;
    assert 4.0 * q == a * a - (b - c) * (b - c);
    assert s * (s - a) * (s - b) * (s - c) == p * q;
    var m := (b + c) * (b + c) - a * a;
    var n := a * a - (b - c) * (b - c);
    assert 16.0 * (p * q) == m * n;
    assert (b + c) * (b + c) + (b - c) * (b - c) == 2.0 * (b * b) + 2.0 * (c * c);
    assert (b + c) * (b + c) * ((b - c) * (b - c)) == (b * b - c * c) * (b * b - c * c);
    assert m * n == a * a * ((b + c) * (b + c) + (b - c) * (b - c))
                    - (b + c) * (b + c) * ((b - c) * (b - c)) - (a * a) * (a * a);
  }

  /** |u|^2 |v|^2 = (u.v)^2 + (u x v)^2. */
  lemma Lagrange(u: Point, v: Point)
    ensures Norm2(u) * Norm2(v) == Inner(u, v) * Inner(u, v) + Cross(u, v) * Cross(u, v)
  {
  }

  /** In a triangle with sides u, v and -(u + v), the expanded Heron form of
      the squared side lengths is four times the squared cross product. */
  lemma HeronOfVectors(u: Point, v: Point)
    ensures HeronForm(Norm2(u), Norm2(v), Norm2(Add(u, v))) == 4.0 * (Cross(u, v) * Cross(u, v))
  {
    var A := Norm2(u);
    var B := Norm2(v);
    var d := Inner(u, v);
    var C := Norm2(Add(u, v));
    assert C == A + B + 2.0 * d;
    assert 2.0 * A * B + 2.0 * B * C + 2.0 * C * A - A * A - B * B - C * C
           == 4.0 * (A * B) - 4.0 * (d * d);
    Lagrange(u, v);
  }
}

=== FILE: dot.dfy ===
/** The `Dot` class of js/index.js: a draggable `Round` with a drag flag.
    Each handler is a step function; `_move` reports that it dispatched a
    `repaint` event instead of dispatching it. */
module Dots {
  import opened Points
  import opened Options
  import opened Rounds

  /** The size every dot is created with. */
  const DotSize: real := 11.0

  datatype Dot = Dot(round: Round, dragstart: bool)

  /** The outcome of a move handler: the dot afterwards and whether it
      dispatched `repaint`. */
  datatype Moved = Moved(dot: Dot, repaint: bool)

  /** A new dot as `Shapes._addDot` creates one. */
  function Create(coords: Point): (d: Dot)
    ensures d.round.coords == coords && d.round.size == DotSize && !d.dragstart
  {
    Dot(Round(coords, DotSize), false)
  }

  /** The top-left corner of the dot's element: its center less half its
      size on each axis. Mouse offsets over the dot are relative to it. */
  function Corner(d: Dot): Point {
    Point(d.round.coords.x - d.round.size / 2.0, d.round.coords.y - d.round.size / 2.0)
  }

  /** `_mouseDown`. */
  function MouseDown(d: Dot): (r: Dot)
    ensures r.dragstart && r.round == d.round
  {
    d.(dragstart := true)
  }

  /** `_mouseUp`. */
  function MouseUp(d: Dot): (r: Dot)
    ensures !r.dragstart && r.round == d.round
  {
    d.(dragstart := false)
  }

  /** `_move`: centre the dot on `p` and announce a repaint. */
  function Move(d: Dot, p: Point): (r: Moved)
    ensures r.repaint && r.dot.dragstart == d.dragstart
    ensures r.dot.round.coords == p && r.dot.round.size == d.round.size
  {
    Moved(d.(round := Rounds.Redraw(d.round, p, None)), true)
  }

  /** `_mouseMove`: while dragging, the offset is measured from the dot's
      own corner, so the dot moves to the cursor's canvas position. */
  function MouseMove(d: Dot, offset: Point): (r: Moved)
    ensures r.repaint == d.dragstart
    ensures !d.dragstart ==> r.dot == d
    ensures d.dragstart ==> r.dot.round.coords == Add(Corner(d), offset)
    ensures r.dot.dragstart == d.dragstart && r.dot.round.size == d.round.size
  {
    if !d.dragstart then Moved(d, false)
    else
      var newX := d.round.coords.x + offset.x - d.round.size / 2.0;
      var newY := d.round.coords.y + offset.y - d.round.size / 2.0;
      Move(d, Point(newX, newY))
  }

  /** `_mousemoveParent`: while dragging, a move whose target is the canvas
      itself puts the dot at the offset, which is then in canvas
      coordinates. */
  function MousemoveParent(d: Dot, offset: Point, onParent: bool): (r: Moved)
    ensures r.repaint <==> d.dragstart && onParent
    ensures !r.repaint ==> r.dot == d
    ensures r.repaint ==> r.dot.round.coords == offset
    ensures r.dot.dragstart == d.dragstart && r.dot.round.size == d.round.size
  {
    if !d.dragstart || !onParent then Moved(d, false)
    else Move(d, offset)
  }

  // --------------------------------------------------- the drag protocol

  /** The mouse events one dot listens to once its handlers are installed. */
  datatype DotEvent =
    | Down
    | Up
    | MoveOver(offset: Point)
    | MoveOnParent(offset: Point, onParent: bool)

  function Handle(d: Dot, e: DotEvent): Dot {
    match e
    case Down => MouseDown(d)
    case Up => MouseUp(d)
    case MoveOver(offset) => MouseMove(d, offset).dot
    case MoveOnParent(offset, onParent) => MousemoveParent(d, offset, onParent).dot
  }

  function HandleAll(d: Dot, es: seq<DotEvent>): Dot
    decreases |es|
  {
    if |es| == 0 then d else HandleAll(Handle(d, es[0]), es[1..])
  }

  /** A dot that is not being dragged stays where it is, whatever mouse
      moves and releases follow, until the next mousedown on it. */
  lemma {:induction false} ReleasedDotStaysPut(d: Dot, es: seq<DotEvent>)
    requires !d.dragstart
    requires forall i :: 0 <= i < |es| ==> !es[i].Down?
    ensures HandleAll(d, es) == d
    decreases |es|
  {
    if |es| > 0 {
      assert Handle(d, es[0]) == d;
      ReleasedDotStaysPut(d, es[1..]);
    }
  }

  /** Mousedown followed by a move over the canvas puts the dot under the
      cursor and keeps it in the dragging state; the next mouseup ends the
      drag there. */
  lemma DragThenRelease(d: Dot, p: Point)
    ensures var dragged := HandleAll(d, [Down, MoveOnParent(p, true)]);
      dragged.dragstart && dragged.round.coords == p
    ensures var released := HandleAll(d, [Down, MoveOnParent(p, true), Up]);
      !released.dragstart && released.round.coords == p
  {
    var down := MouseDown(d);
    var moved := MousemoveParent(down, p, true).dot;
    var es := [Down, MoveOnParent(p, true), Up];
    assert es[1..] == [MoveOnParent(p, true), Up] && es[1..][1..] == [Up] && es[1..][1..][1..] == [];
    assert HandleAll(d, es) == HandleAll(down, [MoveOnParent(p, true), Up]);
    assert HandleAll(down, [MoveOnParent(p, true), Up]) == HandleAll(moved, [Up]);
    assert HandleAll(moved, [Up]) == HandleAll(MouseUp(moved), []);
    var es2 := [Down, MoveOnParent(p, true)];
    assert es2[1..] == [MoveOnParent(p, true)] && es2[1..][1..] == [];
    assert HandleAll(d, es2) == HandleAll(down, [MoveOnParent(p, true)]);
    assert HandleAll(down, [MoveOnParent(p, true)]) == HandleAll(moved, []);
  }
}

=== FILE: listeners.dfy ===
/** The click listeners that `Shapes._run` attaches to the canvas, each with
    the `dotsCounter` it closes over. `_run` attaches a fresh listener every
    time it runs; a listener detaches itself once it has counted its third
    click, and nothing else detaches one: `_destroy` removes the dots and the
    shapes but not the listener. This module follows the number of dots on
    the canvas, not their positions. */
module ClickListeners {

  /** The counters of the attached listeners, oldest first, and the number
      of dots on the canvas. */
  datatype Page = Page(listeners: seq<nat>, dots: nat)

  /** The page after a click, and how many listeners threw while handling
      it. A listener that throws ends only its own handling of the click. */
  datatype Delivered = Delivered(page: Page, throws: nat)

  /** The reachable listeners: each has counted fewer than three clicks,
      since the third detaches it. */
  predicate Live(cs: seq<nat>) {
    forall i :: 0 <= i < |cs| ==> cs[i] < 3
  }

  /** The page a fresh start leaves: one listener, no dots. */
  function Start(): (p: Page)
    ensures Live(p.listeners) && |p.listeners| == 1 && p.dots == 0
  {
    Page([0], 0)
  }

  /** One click handled by the listeners `cs` in order, with `n` dots on the
      canvas. Each listener counts the click, and one whose count is at most
      three adds the clicked dot. One whose count reaches three detaches and
      builds the parallelogram from all the dots. With fewer than three dots
      `_findFouthCoord` throws at its destructuring and nothing more
      happens. Otherwise it adds one more dot, on the fourth vertex. */
  function Deliver(cs: seq<nat>, n: nat): (r: Delivered)
    decreases |cs|
  {
    if |cs| == 0 then Delivered(Page([], n), 0)
    else
      var c := cs[0] + 1;
      var clicked := if c <= 3 then n + 1 else n;
      var builds := c == 3 && clicked >= 3;
      var rest := Deliver(cs[1..], if builds then clicked + 1 else clicked);
      Delivered(Page((if c == 3 then [] else [c]) + rest.page.listeners, rest.page.dots),
                (if c == 3 && !builds then 1 else 0) + rest.throws)
  }

  function Click(p: Page): Delivered {
    Deliver(p.listeners, p.dots)
  }

  /** How many of the listeners have counted `k` clicks. */
  function Count(cs: seq<nat>, k: nat): nat
    decreases |cs|
  {
    if |cs| == 0 then 0 else (if cs[0] == k then 1 else 0) + Count(cs[1..], k)
  }

  lemma {:induction false} CountAppend(a: seq<nat>, b: seq<nat>, k: nat)
    ensures Count(a + b, k) == Count(a, k) + Count(b, k)
    decreases |a|
  {
    if |a| == 0 {
      assert a + b == b;
    } else {
      assert (a + b)[1..] == a[1..] + b;
      CountAppend(a[1..], b, k);
    }
  }

  /** Live listeners stay live, and each that stays has counted the click:
      those at two detach, those at one move to two and those at zero to
      one. Every listener adds its clicked dot, and every detaching one
      either adds the fourth-vertex dot or throws. None throws when two
      dots or more were already there. */
  lemma DeliverToLive(cs: seq<nat>, n: nat)
    requires Live(cs)
    ensures var r := Deliver(cs, n);
      && Live(r.page.listeners)
      && |r.page.listeners| == |cs| - Count(cs, 2)
      && Count(r.page.listeners, 0) == 0
      && Count(r.page.listeners, 1) == Count(cs, 0)
      && Count(r.page.listeners, 2) == Count(cs, 1)
      && n + |cs| <= r.page.dots
      && r.page.dots + r.throws == n + |cs| + Count(cs, 2)
      && (n >= 2 ==> r.throws == 0)
  {
    ListenersAfter(cs, n);
    DotsAfter(cs, n);
  }

  lemma {:induction false} ListenersAfter(cs: seq<nat>, n: nat)
    requires Live(cs)
    ensures var ls := Deliver(cs, n).page.listeners;
      && Live(ls)
      && |ls| == |cs| - Count(cs, 2)
      && Count(ls, 0) == 0
      && Count(ls, 1) == Count(cs, 0)
      && Count(ls, 2) == Count(cs, 1)
    decreases |cs|
  {
    if |cs| > 0 {
      var c := cs[0] + 1;
      var m := if c == 3 && n + 1 >= 3 then n + 2 else n + 1;
      TailIsLive(cs);
      ListenersAfter(cs[1..], m);
      var rest := Deliver(cs[1..], m).page.listeners;
      var head: seq<nat> := if c == 3 then [] else [c];
      assert Deliver(cs, n).page.listeners == head + rest;
      assert head == [] || head[1..] == [];
      CountAppend(head, rest, 0);
      CountAppend(head, rest, 1);
      CountAppend(head, rest, 2);
      forall i | 0 <= i < |head + rest|
        ensures (head + rest)[i] < 3
      {
        if i >= |head| {
          assert (head + rest)[i] == rest[i - |head|];
        }
      }
    }
  }

  lemma {:induction false} DotsAfter(cs: seq<nat>, n: nat)
    requires Live(cs)
    ensures var r := Deliver(cs, n);
      && n + |cs| <= r.page.dots
      && r.page.dots + r.throws == n + |cs| + Count(cs, 2)
      && (n >= 2 ==> r.throws == 0)
    decreases |cs|
  {
    if |cs| > 0 {
      var c := cs[0] + 1;
      var m := if c == 3 && n + 1 >= 3 then n + 2 else n + 1;
      TailIsLive(cs);
      DotsAfter(cs[1..], m);
    }
  }

  /** A single listener, alone since the page had no dots, adds one dot
      per click and on its third click the fourth-vertex dot too. */
  lemma SingleListener(c: nat)
    requires c < 3
    ensures Click(Page([c], c)) == Delivered(Page(if c == 2 then [] else [c + 1], if c == 2 then 4 else c + 1), 0)
  {
    assert [c][1..] == [];
    var n := if c == 2 then 4 else c + 1;
    assert Deliver([], n) == Delivered(Page([], n), 0);
  }

  lemma TailIsLive(cs: seq<nat>)
    requires Live(cs) && |cs| > 0
    ensures Live(cs[1..])
  {
    forall i | 0 <= i < |cs| - 1
      ensures cs[1..][i] < 3
    {
      assert cs[1..][i] == cs[i + 1];
    }
  }

  /** What `reset` leaves as the program writes it: `_destroy` removes the
      dots but keeps every listener, and `_run` adds a fresh one. */
  function ResetAsWritten(p: Page): (r: Page)
    ensures |r.listeners| == |p.listeners| + 1 && r.listeners[..|p.listeners|] == p.listeners
    ensures r.listeners[|p.listeners|] == 0 && r.dots == 0
  {
    Page(p.listeners + [0], 0)
  }

  /** A click after a reset adds a dot for every listener the reset left
      attached as well as for the fresh one, and more for those that
      complete their three clicks without throwing. */
  lemma ResetAsWrittenMultiplies(p: Page)
    requires Live(p.listeners)
    ensures var r := Click(ResetAsWritten(p));
      && |p.listeners| + 1 <= r.page.dots
      && r.page.dots + r.throws == |p.listeners| + 1 + Count(p.listeners, 2)
  {
    var cs := p.listeners + [0];
    assert Live(cs) by {
      forall i | 0 <= i < |cs| ensures cs[i] < 3 {
        if i < |p.listeners| { assert cs[i] == p.listeners[i]; }
      }
    }
    DeliverToLive(cs, 0);
    CountAppend(p.listeners, [0], 2);
    assert [0][1..] == [];
  }

  /** The input that shows it: click once, reset, click again. The second
      click adds two dots, both at the point clicked. */
  lemma ClickResetClickAddsTwo()
    ensures Click(ResetAsWritten(Click(Start()).page)).page.dots == 2
  {
    assert Click(Start()).page == Page([1], 1);
    ResetAsWrittenMultiplies(Page([1], 1));
  }

  /** A longer input: start, reset, reset, click, click, reset, click. The
      last click finds four listeners, three of them stale. It adds five
      dots, and two listeners throw because too few dots exist when they
      build. */
  lemma StaleListenersAddFive()
    ensures var p := ResetAsWritten(Click(Click(ResetAsWritten(ResetAsWritten(Start()))).page).page);
      && p == Page([2, 2, 2, 0], 0)
      && Click(p) == Delivered(Page([1], 5), 2)
  {
    assert ResetAsWritten(ResetAsWritten(Start())) == Page([0, 0, 0], 0);
    ThreeFreshListeners();
    ThreeListenersAtOne();
    FourListenersAfterReset();
  }

  lemma ThreeFreshListeners()
    ensures Click(Page([0, 0, 0], 0)) == Delivered(Page([1, 1, 1], 3), 0)
  {
    assert [0, 0, 0][1..] == [0, 0] && [0, 0][1..] == [0] && [0][1..] == [];
    assert Deliver([0], 2) == Delivered(Page([1], 3), 0);
    assert Deliver([0, 0], 1) == Delivered(Page([1, 1], 3), 0);
  }

  lemma ThreeListenersAtOne()
    ensures Click(Page([1, 1, 1], 3)) == Delivered(Page([2, 2, 2], 6), 0)
  {
    assert [1, 1, 1][1..] == [1, 1] && [1, 1][1..] == [1] && [1][1..] == [];
    assert Deliver([1], 5) == Delivered(Page([2], 6), 0);
    assert Deliver([1, 1], 4) == Delivered(Page([2, 2], 6), 0);
  }

  lemma FourListenersAfterReset()
    ensures Click(Page([2, 2, 2, 0], 0)) == Delivered(Page([1], 5), 2)
  {
    assert [2, 2, 2, 0][1..] == [2, 2, 0] && [2, 2, 0][1..] == [2, 0] && [2, 0][1..] == [0];
    assert [0][1..] == [];
    assert Deliver([0], 4) == Delivered(Page([1], 5), 0);
    assert Deliver([2, 0], 2) == Delivered(Page([1], 5), 0);
    assert Deliver([2, 2, 0], 1) == Delivered(Page([1], 5), 1);
  }

  /** The evidently intended reset: the dots are removed and the click
      protocol starts over with a single listener that has counted
      nothing. */
  function ResetCorrected(p: Page): (r: Page)
    ensures r == Start()
  {
    Page([0], 0)
  }

  /** After the corrected reset the click protocol starts over whatever came
      before it. The first two clicks add one dot each. The third adds the
      clicked dot and the fourth-vertex dot, and detaches the listener.
      Nothing throws. */
  lemma ResetCorrectedStartsOver(p: Page)
    ensures var a := Click(ResetCorrected(p));
            var b := Click(a.page);
            var c := Click(b.page);
      && a == Delivered(Page([1], 1), 0)
      && b == Delivered(Page([2], 2), 0)
      && c == Delivered(Page([], 4), 0)
  {
    assert [0][1..] == [] && [1][1..] == [] && [2][1..] == [];
    assert Deliver([0], 0) == Delivered(Page([1], 1), 0);
    assert Deliver([1], 1) == Delivered(Page([2], 2), 0);
    assert Deliver([2], 2) == Delivered(Page([], 4), 0);
  }
}

=== FILE: options.dfy ===
/** A value that may be absent (the program's `undefined` and `null`
    fields), and the outcome of an operation that may throw. */
module Options {

  datatype Option<+T> = None | Some(value: T)

  datatype Result<+T, +E> = Ok(value: T) | Err(error: E)
}

=== FILE: parallelogram.dfy ===
/** The `Parallelogram` class of js/index.js: from the three clicked points it
    derives the fourth vertex, the center, the area and the bounding box of
    its SVG element, and the four edges drawn inside that box. */
module Parallelograms {
  import opened Points
  import opened Roots
  import opened Sorting
  import Algebra

  /** The box of the SVG element: its top-left corner (`_startCoords`) and its
      size (`_width`, `_height`). */
  datatype Space = Space(start: Point, width: real, height: real)

  datatype Parallelogram = Parallelogram(
    partCoords: seq<Point>,  // the three points the shape is built from
    coords: seq<Point>,      // those three followed by the derived vertex
    center: Point,
    square: real)            // the area; the box is `FindSpace(coords)`

  /** The attributes of one SVG `line`, relative to the element's corner. */
  datatype Line = Line(x1: real, y1: real, x2: real, y2: real)

  /** The point after `pts[i]`, wrapping from the last to the first. */
  function Next(pts: seq<Point>, i: int): Point
    requires 0 <= i < |pts|
  {
    if i == |pts| - 1 then pts[0] else pts[i + 1]
  }

  /** `Next` is the `(i + 1) % n` of the edge loops. */
  lemma NextWraps(pts: seq<Point>, i: int)
    requires 0 <= i < |pts|
    ensures Next(pts, i) == pts[(i + 1) % |pts|]
  {
  }

  // ---------------------------------------------------------------- vertices

  /** The vertices and the center `_findFouthCoord` sets. */
  datatype Completed = Completed(coords: seq<Point>, center: Point)

  /** `_findFouthCoord`: the fourth vertex reflects point 1 through the
      midpoint of the 0-2 diagonal, and that midpoint is the center. */
  function FindFourthCoord(part: seq<Point>): (r: Completed)
    requires |part| == 3
    ensures |r.coords| == 4 && r.coords[..3] == part
    ensures r.center == Mid(r.coords[0], r.coords[2]) == Mid(r.coords[1], r.coords[3])
    ensures Sub(r.coords[1], r.coords[0]) == Sub(r.coords[2], r.coords[3])
    ensures Sub(r.coords[2], r.coords[1]) == Sub(r.coords[3], r.coords[0])
  {
    var center := Mid(part[0], part[2]);
    var dot3 := Point(2.0 * center.x - part[1].x, 2.0 * center.y - part[1].y);
    Completed(part + [dot3], center)
  }

  /** The derived vertex is the only point that makes the sides opposite
      each other equal vectors. */
  lemma FourthCoordUnique(part: seq<Point>, q: Point)
    requires |part| == 3
    ensures Sub(part[1], part[0]) == Sub(part[2], q) <==> q == FindFourthCoord(part).coords[3]
  {
  }

  // -------------------------------------------------------------------- area

  function SideLength(p: Point, q: Point, sqrt: real -> real): real {
    sqrt(Sq(Abs(q.x - p.x)) + Sq(Abs(q.y - p.y)))
  }

  /** The length of each side from a point to the next, cyclically. */
  function SideLengths(pts: seq<Point>, sqrt: real -> real): (r: seq<real>)
    ensures |r| == |pts|
  {
    seq(|pts|, i requires 0 <= i < |pts| => SideLength(pts[i], Next(pts, i), sqrt))
  }

  /** `reduce((sum, x) => sum + x, acc)`. */
  function SumFrom(acc: real, s: seq<real>): real
    decreases |s|
  {
    if |s| == 0 then acc else SumFrom(acc + s[0], s[1..])
  }

  /** `reduce((acc, side) => acc * (hp - side), acc)`. */
  function ProductFrom(acc: real, hp: real, s: seq<real>): real
    decreases |s|
  {
    if |s| == 0 then acc else ProductFrom(acc * (hp - s[0]), hp, s[1..])
  }

  function HalfPerimeter(lengths: seq<real>): real {
    SumFrom(0.0, lengths) / 2.0
  }

  /** Heron's product, as the fold seeded with the half perimeter. */
  function HeronProduct(lengths: seq<real>): real {
    var hp := HalfPerimeter(lengths);
    ProductFrom(hp, hp, lengths)
  }

  /** `_calculateSquare`: twice the area of the triangle of the points. */
  function CalculateSquare(part: seq<Point>, sqrt: real -> real): real {
    2.0 * sqrt(HeronProduct(SideLengths(part, sqrt)))
  }

  /** Heron's product s(s-a)(s-b)(s-c) for sides a, b, c and half
      perimeter s. */
  function Heron(a: real, b: real, c: real): real {
    var s := (a + b + c) / 2.0;
    s * (s - a) * (s - b) * (s - c)
  }

  /** The Euclidean distance, without the absolute values the program takes
      before squaring. */
  function Distance(p: Point, q: Point, sqrt: real -> real): real {
    sqrt(Norm2(Sub(q, p)))
  }

  lemma SideLengthIsDistance(p: Point, q: Point, sqrt: real -> real)
    ensures SideLength(p, q, sqrt) == Distance(p, q, sqrt)
  {
    var dx := q.x - p.x;
    var dy := q.y - p.y;
    assert Sq(Abs(dx)) == dx * dx;
    assert Sq(Abs(dy)) == dy * dy;
    assert Sq(Abs(dx)) + Sq(Abs(dy)) == Norm2(Sub(q, p));
  }

  /** For three points the sides run 0-1, 1-2 and 2-0: only the input
      points are measured, not the derived vertex. */
  lemma SideLengthsOfThree(part: seq<Point>, sqrt: real -> real)
    requires |part| == 3
    ensures SideLengths(part, sqrt)
            == [Distance(part[0], part[1], sqrt), Distance(part[1], part[2], sqrt), Distance(part[2], part[0], sqrt)]
  {
    SideLengthIsDistance(part[0], part[1], sqrt);
    SideLengthIsDistance(part[1], part[2], sqrt);
    SideLengthIsDistance(part[2], part[0], sqrt);
  }

  /** The half perimeter is half the sum of the three sides, and the fold
      seeded with it is Heron's product. */
  lemma SquareIsHeron(part: seq<Point>, sqrt: real -> real)
    requires |part| == 3
    ensures var a := Distance(part[0], part[1], sqrt);
            var b := Distance(part[1], part[2], sqrt);
            var c := Distance(part[2], part[0], sqrt);
      && HalfPerimeter(SideLengths(part, sqrt)) == (a + b + c) / 2.0
      && HeronProduct(SideLengths(part, sqrt)) == Heron(a, b, c)
      && CalculateSquare(part, sqrt) == 2.0 * sqrt(Heron(a, b, c))
  {
    var a := Distance(part[0], part[1], sqrt);
    var b := Distance(part[1], part[2], sqrt);
    var c := Distance(part[2], part[0], sqrt);
    SideLengthsOfThree(part, sqrt);
    FoldsOfThree(a, b, c);
  }

  /** Both folds unrolled over three sides. */
  lemma FoldsOfThree(a: real, b: real, c: real)
    ensures HalfPerimeter([a, b, c]) == (a + b + c) / 2.0
    ensures HeronProduct([a, b, c]) == Heron(a, b, c)
  {
    var ls := [a, b, c];
    assert ls[1..] == [b, c] && [b, c][1..] == [c] && [c][1..] == [];
    assert SumFrom(0.0, ls) == SumFrom(0.0 + a, [b, c]);
    assert SumFrom(0.0 + a, [b, c]) == SumFrom(0.0 + a + b, [c]);
    assert SumFrom(0.0 + a + b, [c]) == SumFrom(0.0 + a + b + c, []);
    var s := (a + b + c) / 2.0;
    assert ProductFrom(s, s, ls) == ProductFrom(s * (s - a), s, [b, c]);
    assert ProductFrom(s * (s - a), s, [b, c]) == ProductFrom(s * (s - a) * (s - b), s, [c]);
    assert ProductFrom(s * (s - a) * (s - b), s, [c]) == ProductFrom(s * (s - a) * (s - b) * (s - c), s, []);
  }

  /** Under a true square root a distance is non-negative and its square
      is the squared length of the difference. */
  lemma DistanceSquared(p: Point, q: Point, sqrt: real -> real)
    requires IsSqrt(sqrt)
    ensures var l := Distance(p, q, sqrt);
      0.0 <= l && l * l == Norm2(Sub(q, p))
  {
    var d := Sub(q, p);
    assert 0.0 <= d.x * d.x && 0.0 <= d.y * d.y;
    assert RootAt(sqrt, Norm2(d));
  }

  /** The area is the magnitude of the cross product of two adjacent sides:
      the exact area of the parallelogram. In particular the Heron product
      is never negative over the reals. */
  lemma SquareIsCrossArea(part: seq<Point>, sqrt: real -> real)
    requires |part| == 3
    requires IsSqrt(sqrt)
    ensures 0.0 <= HeronProduct(SideLengths(part, sqrt))
    ensures CalculateSquare(part, sqrt) == Abs(Cross(Sub(part[1], part[0]), Sub(part[2], part[1])))
  {
    var u := Sub(part[1], part[0]);
    var v := Sub(part[2], part[1]);
    SquareIsHeron(part, sqrt);
    HeronOfTriangle(part[0], part[1], part[2], sqrt);
  }

  /** Twice the root of Heron's product of the triangle p0 p1 p2 is the
      magnitude of the cross product of its sides p0->p1 and p1->p2. */
  lemma HeronOfTriangle(p0: Point, p1: Point, p2: Point, sqrt: real -> real)
    requires IsSqrt(sqrt)
    ensures var h := Heron(Distance(p0, p1, sqrt), Distance(p1, p2, sqrt), Distance(p2, p0, sqrt));
      0.0 <= h && 2.0 * sqrt(h) == Abs(Cross(Sub(p1, p0), Sub(p2, p1)))
  {
    TriangleHeronForm(p0, p1, p2, sqrt);
    RootOfHeron(sqrt, Heron(Distance(p0, p1, sqrt), Distance(p1, p2, sqrt), Distance(p2, p0, sqrt)),
                Cross(Sub(p1, p0), Sub(p2, p1)));
  }

  lemma TriangleHeronForm(p0: Point, p1: Point, p2: Point, sqrt: real -> real)
    requires IsSqrt(sqrt)
    ensures 16.0 * Heron(Distance(p0, p1, sqrt), Distance(p1, p2, sqrt), Distance(p2, p0, sqrt))
            == 4.0 * (Cross(Sub(p1, p0), Sub(p2, p1)) * Cross(Sub(p1, p0), Sub(p2, p1)))
  {
    DistanceSquared(p0, p1, sqrt);
    DistanceSquared(p1, p2, sqrt);
    DistanceSquared(p2, p0, sqrt);
    ClosingSide(p0, p1, p2);
    HeronOfSides(Distance(p0, p1, sqrt), Distance(p1, p2, sqrt), Distance(p2, p0, sqrt), Sub(p1, p0), Sub(p2, p1));
  }

  /** The side from the last point back to the first is minus the sum of the
      other two. */
  lemma ClosingSide(p0: Point, p1: Point, p2: Point)
    ensures Norm2(Sub(p0, p2)) == Norm2(Add(Sub(p1, p0), Sub(p2, p1)))
  {
    var w := Add(Sub(p1, p0), Sub(p2, p1));
    assert Sub(p0, p2) == Point(-w.x, -w.y);
  }

  /** If sixteen times `sq` is four times k squared, twice the root of `sq`
      is |k|. */
  lemma RootOfHeron(sqrt: real -> real, sq: real, k: real)
    requires IsSqrt(sqrt)
    requires 16.0 * sq == 4.0 * (k * k)
    ensures 0.0 <= sq && 2.0 * sqrt(sq) == Abs(k)
  {
    var h := Abs(k) / 2.0;
    HalfAbsSquared(k);
    assert sq == h * h;
    SqrtOfSquare(sqrt, h);
  }

  /** Sixteen times Heron's product of a triangle with sides u, v and
      -(u + v) is four times the square of their cross product. */
  lemma HeronOfSides(a: real, b: real, c: real, u: Point, v: Point)
    requires a * a == Norm2(u) && b * b == Norm2(v) && c * c == Norm2(Add(u, v))
    ensures 16.0 * Heron(a, b, c) == 4.0 * (Cross(u, v) * Cross(u, v))
  {
    Algebra.HeronExpanded(a, b, c);
    Algebra.HeronOfVectors(u, v);
    assert Algebra.HeronForm(a * a, b * b, c * c) == Algebra.HeronForm(Norm2(u), Norm2(v), Norm2(Add(u, v)));
  }

  lemma HalfAbsSquared(k: real)
    ensures (Abs(k) / 2.0) * (Abs(k) / 2.0) == (k * k) / 4.0
  {
    assert Abs(k) * Abs(k) == k * k;
  }

  /** Twice the signed area of a polygon by the shoelace formula. */
  function ShoelaceSum(pts: seq<Point>): real {
    SumFrom(0.0, seq(|pts|, i requires 0 <= i < |pts| => Cross(pts[i], Next(pts, i))))
  }

  // ---------------------------------------------------------------- the box

  function Xs(pts: seq<Point>): (r: seq<real>)
    ensures |r| == |pts| && forall i :: 0 <= i < |pts| ==> r[i] == pts[i].x
  {
    seq(|pts|, i requires 0 <= i < |pts| => pts[i].x)
  }

  function Ys(pts: seq<Point>): (r: seq<real>)
    ensures |r| == |pts| && forall i :: 0 <= i < |pts| ==> r[i] == pts[i].y
  {
    seq(|pts|, i requires 0 <= i < |pts| => pts[i].y)
  }

  predicate InSpace(p: Point, sp: Space) {
    && sp.start.x <= p.x <= sp.start.x + sp.width
    && sp.start.y <= p.y <= sp.start.y + sp.height
  }

  /** `_findSpace`: the smallest axis-aligned box holding the four vertices.
      Every vertex lies inside, and each of the four sides of the box touches
      a vertex, so the corner is the componentwise minimum. */
  function FindSpace(coords: seq<Point>): (r: Space)
    requires |coords| == 4
    ensures 0.0 <= r.width && 0.0 <= r.height
    ensures forall i :: 0 <= i < 4 ==> InSpace(coords[i], r)
    ensures exists i :: 0 <= i < 4 && coords[i].x == r.start.x
    ensures exists i :: 0 <= i < 4 && coords[i].y == r.start.y
    ensures exists i :: 0 <= i < 4 && coords[i].x == r.start.x + r.width
    ensures exists i :: 0 <= i < 4 && coords[i].y == r.start.y + r.height
  {
    var xs := Extent(Xs(coords));
    var ys := Extent(Ys(coords));
    Space(Point(xs.0, ys.0), xs.1 - xs.0, ys.1 - ys.0)
  }

  /** The first and last of the ascending sort, as `_findSpace` reads them:
      the least and the greatest value. */
  function Extent(s: seq<real>): (r: (real, real))
    requires |s| > 0
    ensures r.0 in s && r.1 in s
    ensures forall i :: 0 <= i < |s| ==> r.0 <= s[i] <= r.1
  {
    SortBounds(s);
    var t := Sort(s);
    (t[0], t[|s| - 1])
  }

  // ------------------------------------------------------------ the geometry

  /** `_calculateGeometry`: vertex and center, then area. The box it also
      computes depends on the vertices alone and is kept as the function
      `FindSpace` of them rather than as a field. */
  function CalculateGeometry(part: seq<Point>, sqrt: real -> real): (r: Parallelogram)
    requires |part| == 3
    ensures r.partCoords == part
    ensures |r.coords| == 4 && r.coords[..3] == part
    ensures r.center == Mid(r.coords[0], r.coords[2]) == Mid(r.coords[1], r.coords[3])
  {
    var fourth := FindFourthCoord(part);
    Parallelogram(part, fourth.coords, fourth.center, CalculateSquare(part, sqrt))
  }

  /** What `_draw` and `_updatePosition` produce for the geometry: the
      element's box holds every vertex, and the four edges, each from a
      vertex to the next, lie within the element. */
  lemma EdgesFitBox(part: seq<Point>, sqrt: real -> real)
    requires |part| == 3
    ensures var g := CalculateGeometry(part, sqrt);
            var sp := FindSpace(g.coords);
            var ls := Lines(g.coords, sp.start);
      && (forall i :: 0 <= i < 4 ==> InSpace(g.coords[i], sp))
      && |ls| == 4
      && forall i :: 0 <= i < 4 ==> LineInBox(ls[i], sp.width, sp.height)
  {
    var g := CalculateGeometry(part, sqrt);
    LinesFitSpace(g.coords, FindSpace(g.coords));
  }

  /** The area also equals the shoelace area of the four vertices in order. */
  lemma SquareIsShoelaceArea(part: seq<Point>, sqrt: real -> real)
    requires |part| == 3
    requires IsSqrt(sqrt)
    ensures var g := CalculateGeometry(part, sqrt);
      g.square == Abs(ShoelaceSum(g.coords)) / 2.0
  {
    var c := FindFourthCoord(part).coords;
    ShoelaceOfFour(c);
    var k := Cross(Sub(part[1], part[0]), Sub(part[2], part[1]));
    assert c[3] == Point(part[0].x + part[2].x - part[1].x, part[0].y + part[2].y - part[1].y);
    assert ShoelaceSum(c) == 2.0 * k;
    SquareIsCrossArea(part, sqrt);
  }

  /** The shoelace sum of four points, unrolled. */
  lemma ShoelaceOfFour(c: seq<Point>)
    requires |c| == 4
    ensures ShoelaceSum(c) == Cross(c[0], c[1]) + Cross(c[1], c[2]) + Cross(c[2], c[3]) + Cross(c[3], c[0])
  {
    var t := seq(4, i requires 0 <= i < 4 => Cross(c[i], Next(c, i)));
    var t0, t1, t2, t3 := Cross(c[0], c[1]), Cross(c[1], c[2]), Cross(c[2], c[3]), Cross(c[3], c[0]);
    assert t == [t0, t1, t2, t3];
    assert t[1..] == [t1, t2, t3] && [t1, t2, t3][1..] == [t2, t3] && [t2, t3][1..] == [t3] && [t3][1..] == [];
    assert SumFrom(0.0, t) == SumFrom(0.0 + t0, [t1, t2, t3]);
    assert SumFrom(0.0 + t0, [t1, t2, t3]) == SumFrom(0.0 + t0 + t1, [t2, t3]);
    assert SumFrom(0.0 + t0 + t1, [t2, t3]) == SumFrom(0.0 + t0 + t1 + t2, [t3]);
    assert SumFrom(0.0 + t0 + t1 + t2, [t3]) == SumFrom(0.0 + t0 + t1 + t2 + t3, []);
  }

  // ----------------------------------------------------------------- edges

  /** The edge loop of `_draw` and `_updatePosition`: one line from every
      vertex to the next, shifted by the box corner. */
  function Lines(coords: seq<Point>, start: Point): (r: seq<Line>)
    ensures |r| == |coords|
  {
    seq(|coords|, i requires 0 <= i < |coords| =>
      Line(coords[i].x - start.x, coords[i].y - start.y,
           Next(coords, i).x - start.x, Next(coords, i).y - start.y))
  }

  predicate LineInBox(l: Line, width: real, height: real) {
    && 0.0 <= l.x1 <= width && 0.0 <= l.y1 <= height
    && 0.0 <= l.x2 <= width && 0.0 <= l.y2 <= height
  }

  /** One edge per vertex, vertex i to vertex (i + 1) mod n, and when every
      vertex lies in the box every edge lies within the element. */
  lemma LinesFitSpace(coords: seq<Point>, sp: Space)
    requires forall i :: 0 <= i < |coords| ==> InSpace(coords[i], sp)
    ensures var ls := Lines(coords, sp.start);
      && |ls| == |coords|
      && forall i :: 0 <= i < |coords| ==>
           && ls[i] == Line(coords[i].x - sp.start.x, coords[i].y - sp.start.y,
                            coords[(i + 1) % |coords|].x - sp.start.x,
                            coords[(i + 1) % |coords|].y - sp.start.y)
           && LineInBox(ls[i], sp.width, sp.height)
  {
    var ls := Lines(coords, sp.start);
    forall i | 0 <= i < |coords|
      ensures ls[i] == Line(coords[i].x - sp.start.x, coords[i].y - sp.start.y,
                            coords[(i + 1) % |coords|].x - sp.start.x,
                            coords[(i + 1) % |coords|].y - sp.start.y)
      ensures LineInBox(ls[i], sp.width, sp.height)
    {
      var j := (i + 1) % |coords|;
      NextWraps(coords, i);
      assert Next(coords, i) == coords[j];
      assert InSpace(coords[i], sp);
      assert InSpace(coords[j], sp);
    }
  }

  // --------------------------------------------------------------- scaling

  /** Scaling the three points per axis scales every vertex and the center
      the same way. */
  lemma ScalingCommutes(part: seq<Point>, sx: real, sy: real)
    requires |part| == 3
    ensures var f := FindFourthCoord(part);
            var f' := FindFourthCoord(ScaleAll(part, sx, sy));
      && f'.coords == ScaleAll(f.coords, sx, sy)
      && f'.center == ScaleAxes(f.center, sx, sy)
  {
    var f := FindFourthCoord(part);
    var f' := FindFourthCoord(ScaleAll(part, sx, sy));
    assert f'.coords[3] == ScaleAxes(f.coords[3], sx, sy);
  }

  /** Scaling the three points per axis multiplies the area by |sx * sy|. */
  lemma ScalingScalesSquare(part: seq<Point>, sx: real, sy: real, sqrt: real -> real)
    requires |part| == 3
    requires IsSqrt(sqrt)
    ensures CalculateSquare(ScaleAll(part, sx, sy), sqrt) == Abs(sx * sy) * CalculateSquare(part, sqrt)
  {
    var sp := ScaleAll(part, sx, sy);
    var u := Sub(part[1], part[0]);
    var v := Sub(part[2], part[1]);
    var u' := Sub(sp[1], sp[0]);
    var v' := Sub(sp[2], sp[1]);
    assert u' == ScaleAxes(u, sx, sy) && v' == ScaleAxes(v, sx, sy);
    CrossScales(u, v, sx, sy);
    SquareIsCrossArea(part, sqrt);
    SquareIsCrossArea(sp, sqrt);
  }

  /** The same for the area the geometry records. */
  lemma GeometryScalesSquare(part: seq<Point>, sx: real, sy: real, sqrt: real -> real)
    requires |part| == 3
    requires IsSqrt(sqrt)
    ensures CalculateGeometry(ScaleAll(part, sx, sy), sqrt).square
      == Abs(sx * sy) * CalculateGeometry(part, sqrt).square
  {
    ScalingScalesSquare(part, sx, sy, sqrt);
  }

  lemma CrossScales(u: Point, v: Point, sx: real, sy: real)
    ensures Abs(Cross(ScaleAxes(u, sx, sy), ScaleAxes(v, sx, sy))) == Abs(sx * sy) * Abs(Cross(u, v))
  {
    var k := sx * sy;
    Regroup(sx, sy, u.x, v.y);
    Regroup(sx, sy, v.x, u.y);
    FactorOut(k, u.x * v.y, u.y * v.x);
    assert Cross(ScaleAxes(u, sx, sy), ScaleAxes(v, sx, sy)) == k * Cross(u, v);
    AbsOfProduct(k, Cross(u, v));
  }

  lemma Regroup(a: real, b: real, c: real, d: real)
    ensures (a * c) * (b * d) == (a * b) * (c * d)
  {
  }

  lemma FactorOut(k: real, a: real, b: real)
    ensures k * a - k * b == k * (a - b)
  {
  }

  lemma AbsOfProduct(m: real, k: real)
    ensures Abs(m * k) == Abs(m) * Abs(k)
  {
    if m < 0.0 {
      if k < 0.0 { assert m * k == (-m) * (-k); } else { assert -(m * k) == (-m) * k; }
    } else {
      if k < 0.0 { assert -(m * k) == m * (-k); }
    }
  }
}

=== FILE: points.dfy ===
/** Points and vectors on the canvas. The program keeps a position as a
    two-element array of doubles; here both coordinates are exact reals. */
module Points {

  datatype Point = Point(x: real, y: real)

  function Add(p: Point, q: Point): Point {
    Point(p.x + q.x, p.y + q.y)
  }

  function Sub(p: Point, q: Point): Point {
    Point(p.x - q.x, p.y - q.y)
  }

  /** The midpoint of the segment from `p` to `q`. */
  function Mid(p: Point, q: Point): Point {
    Point((p.x + q.x) / 2.0, (p.y + q.y) / 2.0)
  }

  /** Each coordinate multiplied by its own factor, as a window resize does. */
  function ScaleAxes(p: Point, sx: real, sy: real): Point {
    Point(sx * p.x, sy * p.y)
  }

  /** The z-component of the cross product: the signed area of the
      parallelogram spanned by `u` and `v`. */
  function Cross(u: Point, v: Point): real {
    u.x * v.y - u.y * v.x
  }

  function Inner(u: Point, v: Point): real {
    u.x * v.x + u.y * v.y
  }

  /** The squared Euclidean length of `u`. */
  function Norm2(u: Point): real {
    Inner(u, u)
  }

  function Abs(r: real): real {
    if r < 0.0 then -r else r
  }

  function Sq(r: real): real {
    r * r
  }

  /** Every point of `pts` scaled per axis. */
  function ScaleAll(pts: seq<Point>, sx: real, sy: real): (r: seq<Point>)
    ensures |r| == |pts|
    ensures forall i :: 0 <= i < |pts| ==> r[i] == ScaleAxes(pts[i], sx, sy)
  {
    seq(|pts|, i requires 0 <= i < |pts| => ScaleAxes(pts[i], sx, sy))
  }
}

=== FILE: roots.dfy ===
/** The host's `Math.sqrt` is not available to the model; every operation that
    takes a root receives it as a parameter, and the facts about roots assume
    only that the parameter is a square root on the non-negative reals. */
module Roots {

  ghost predicate IsSqrt(sqrt: real -> real) {
    forall x :: 0.0 <= x ==> RootAt(sqrt, x)
  }

  /** `sqrt(x)` is the non-negative root of `x`. Stated as its own predicate
      so that the facts about one root are produced only where a proof asks
      for them. */
  ghost predicate RootAt(sqrt: real -> real, x: real) {
    0.0 <= sqrt(x) && sqrt(x) * sqrt(x) == x
  }

  /** Non-negative square roots are unique. */
  lemma RootUnique(r: real, t: real)
    requires 0.0 <= r && 0.0 <= t
    requires r * r == t * t
    ensures r == t
  {
    assert (r - t) * (r + t) == r * r - t * t;
    if r + t != 0.0 {
      assert r - t == 0.0;
    }
  }

  /** The root of a square is the non-negative base. */
  lemma SqrtOfSquare(sqrt: real -> real, t: real)
    requires IsSqrt(sqrt)
    requires 0.0 <= t
    ensures sqrt(t * t) == t
  {
    assert 0.0 <= t * t;
    assert RootAt(sqrt, t * t);
    RootUnique(sqrt(t * t), t);
  }
}

=== FILE: round.dfy ===
/** The `Round` class of js/index.js, a labelled SVG circle at a point, and
    its `Circle` subclass, which the program sizes so that its area is the
    parallelogram's. */
module Rounds {
  import opened Points
  import opened Options
  import opened Roots

  /** The program's value of pi. */
  const Pi: real := 3.14

  datatype Round = Round(coords: Point, size: real)

  /** The area of a circle of diameter `d`, with the program's pi. */
  function CircleArea(d: real): real {
    Pi * (d / 2.0) * (d / 2.0)
  }

  /** `Round.calculateDiameterFromSquare`. */
  function DiameterFromSquare(square: real, sqrt: real -> real): real {
    sqrt(square / Pi) * 2.0
  }

  /** The diameter computed from an area gives a circle of exactly that
      area. */
  lemma DiameterGivesArea(square: real, sqrt: real -> real)
    requires IsSqrt(sqrt)
    requires 0.0 <= square
    ensures 0.0 <= DiameterFromSquare(square, sqrt)
    ensures CircleArea(DiameterFromSquare(square, sqrt)) == square
  {
    assert RootAt(sqrt, square / Pi);
  }

  /** Conversely, the diameter computed from the area of a circle is that
      circle's diameter. */
  lemma AreaGivesDiameter(d: real, sqrt: real -> real)
    requires IsSqrt(sqrt)
    requires 0.0 <= d
    ensures DiameterFromSquare(CircleArea(d), sqrt) == d
  {
    var r := d / 2.0;
    assert CircleArea(d) / Pi == r * r;
    SqrtOfSquare(sqrt, r);
  }

  /** `Round.redraw(coords, size)`: the coordinates are always replaced; the
      size only when one is passed and it is truthy, so a size of zero
      leaves the previous size in place. */
  function Redraw(r: Round, coords: Point, size: Option<real>): (r': Round)
    ensures r'.coords == coords
    ensures size.Some? && size.value != 0.0 ==> r'.size == size.value
    ensures size.None? || size.value == 0.0 ==> r'.size == r.size
  {
    Round(coords, if size.Some? && size.value != 0.0 then size.value else r.size)
  }

  // ------------------------------------------------------- the circle label

  /** `Circle._calculateSquare` as the program writes it: pi times the
      squared size. The size is the diameter, not the radius. */
  function LabelSquareAsWritten(c: Round): real {
    Pi * (c.size * c.size)
  }

  /** The label of a circle sized from an area shows four times that area. */
  lemma LabelSquareAsWrittenIsFourfold(center: Point, square: real, sqrt: real -> real)
    requires IsSqrt(sqrt)
    requires 0.0 <= square
    ensures LabelSquareAsWritten(Round(center, DiameterFromSquare(square, sqrt))) == 4.0 * square
  {
    DiameterGivesArea(square, sqrt);
  }

  /** A concrete case: for a parallelogram of area 1 the label reads 4. */
  lemma LabelSquareAsWrittenMismatch(center: Point, sqrt: real -> real)
    requires IsSqrt(sqrt)
    ensures LabelSquareAsWritten(Round(center, DiameterFromSquare(1.0, sqrt))) != 1.0
  {
    LabelSquareAsWrittenIsFourfold(center, 1.0, sqrt);
  }

  /** The circle's area from its diameter, which the label evidently means
      to show. */
  function LabelSquare(c: Round): real {
    CircleArea(c.size)
  }

  /** The corrected label of a circle sized from an area shows that area. */
  lemma LabelSquareIsArea(center: Point, square: real, sqrt: real -> real)
    requires IsSqrt(sqrt)
    requires 0.0 <= square
    ensures LabelSquare(Round(center, DiameterFromSquare(square, sqrt))) == square
  {
    DiameterGivesArea(square, sqrt);
  }
}

=== FILE: shapes.dfy ===
/** The `Shapes` class of js/index.js: the scene of dots, parallelogram and
    circle; the click protocol that builds it; the redraw that re-derives the
    parallelogram, the fourth dot and the circle from the first three dots;
    the resize that rescales every dot; reset; and the mouse events that the
    dots' handlers turn into drags. Every event is one atomic step, with the
    redraw that a `repaint` schedules run at the end of it. */
module Shapes {
  import opened Points
  import opened Options
  import opened Roots
  import opened Parallelograms
  import opened Rounds
  import opened Dots
  import ClickListeners

  /** What the program throws: `redraw` read from a parallelogram that does
      not exist (a TypeError), or the error `_drawCircleAccordingParallelogram`
      raises in that case. */
  datatype Fault = ParallelogramNotDefined

  datatype Size = Size(width: real, height: real)

  datatype State = State(
    dots: seq<Dot>,
    parallelogram: Option<Parallelogram>,
    circle: Option<Round>,
    canvas: Size,
    clicks: nat,      // the click handler's `dotsCounter`
    listening: bool)  // whether that click handler is attached

  /** A state after an event, and what the event threw, if anything. */
  datatype Outcome = Outcome(state: State, fault: Option<Fault>)

  /** The mouse, window and button events the scene reacts to. `dot` names
      the dot element under the cursor, by its index in `_dots`. */
  datatype Event =
    | Click(at: Point)
    | Resize(size: Size)
    | Reset
    | MouseDown(dot: nat)
    | MouseUp
    | MouseMoveOnDot(dot: nat, offset: Point)
    | MouseMoveOnCanvas(offset: Point)

  /** The invariant of every state the events can reach: the dots, the
      shapes and the click handler move together. */
  predicate Wf(s: State) {
    && s.canvas.width != 0.0 && s.canvas.height != 0.0
    && s.clicks <= 3
    && (s.listening <==> s.clicks < 3)
    && |s.dots| == (if s.clicks < 3 then s.clicks else 4)
    && (s.parallelogram.Some? <==> s.clicks == 3)
    && (s.circle.Some? <==> s.clicks == 3)
  }

  /** A resize divides by the current canvas size, so it must not be zero. */
  predicate Admissible(e: Event) {
    e.Resize? ==> e.size.width != 0.0 && e.size.height != 0.0
  }

  function CoordsOf(dots: seq<Dot>): (r: seq<Point>)
    ensures |r| == |dots| && forall i :: 0 <= i < |dots| ==> r[i] == dots[i].round.coords
  {
    seq(|dots|, i requires 0 <= i < |dots| => dots[i].round.coords)
  }

  /** The coordinates of the first three dots, from which everything else is
      derived. */
  function PartCoords(s: State): (r: seq<Point>)
    requires |s.dots| >= 3
    ensures |r| == 3
  {
    [s.dots[0].round.coords, s.dots[1].round.coords, s.dots[2].round.coords]
  }

  /** Once complete, the parallelogram is the one built from the first three
      dots, the fourth dot sits on its derived vertex, and the circle is
      centred on its center with the diameter of equal area (unless that
      diameter is zero: see `Rounds.Redraw`). */
  predicate Consistent(s: State, sqrt: real -> real) {
    s.clicks == 3 ==>
      && |s.dots| == 4 && s.circle.Some?
      && var g := CalculateGeometry(PartCoords(s), sqrt);
         var d := DiameterFromSquare(g.square, sqrt);
      && s.parallelogram == Some(g)
      && s.dots[3].round.coords == g.coords[3]
      && s.circle.value.coords == g.center
      && (d != 0.0 ==> s.circle.value.size == d)
  }

  /** The constructor followed by `_run`. */
  function Start(canvas: Size): (s: State)
    requires canvas.width != 0.0 && canvas.height != 0.0
    ensures Wf(s) && s.listening && |s.dots| == 0
  {
    State([], None, None, canvas, 0, true)
  }

  // ------------------------------------------------------------ the circle

  /** `_drawCircleAccordingParallelogram`: throws without a parallelogram,
      otherwise a circle on its center of the same area. */
  function DrawCircle(par: Option<Parallelogram>, sqrt: real -> real): (r: Result<Round, Fault>)
    ensures r.Err? <==> par.None?
    ensures r.Ok? ==> r.value.coords == par.value.center
    ensures r.Ok? ==> r.value.size == DiameterFromSquare(par.value.square, sqrt)
  {
    if par.None? then Err(ParallelogramNotDefined)
    else Ok(Round(par.value.center, DiameterFromSquare(par.value.square, sqrt)))
  }

  /** The circle drawn for a parallelogram built from three points has the
      parallelogram's area. */
  lemma CircleMatchesArea(part: seq<Point>, sqrt: real -> real)
    requires |part| == 3
    requires IsSqrt(sqrt)
    ensures var g := CalculateGeometry(part, sqrt);
      CircleArea(DrawCircle(Some(g), sqrt).value.size) == g.square
  {
    var g := CalculateGeometry(part, sqrt);
    SquareIsCrossArea(part, sqrt);
    DiameterGivesArea(g.square, sqrt);
  }

  // ----------------------------------------------------------- the events

  /** The click handler of `_run`. The first two clicks add a dot each; the
      third adds its dot, detaches the handler, builds the parallelogram
      from the three dots and adds a fourth dot on its derived vertex and
      the circle. A click after the handler is detached does nothing. */
  function OnClick(s: State, at: Point, sqrt: real -> real): (r: State)
    requires Wf(s)
    ensures Wf(r)
    ensures r.canvas == s.canvas
    ensures !s.listening ==> r == s
    ensures s.listening ==> r.clicks == s.clicks + 1 && |r.dots| >= |s.dots| + 1
    ensures s.listening ==> r.dots[..|s.dots|] == s.dots && r.dots[|s.dots|] == Dots.Create(at)
  {
    if !s.listening then s
    else
      var n := s.clicks + 1;
      var dots := if n <= 3 then s.dots + [Dots.Create(at)] else s.dots;
      if n != 3 then s.(dots := dots, clicks := n)
      else
        var par := CalculateGeometry(CoordsOf(dots), sqrt);
        var dots' := dots + [Dots.Create(par.coords[3])];
        var circle := DrawCircle(Some(par), sqrt).value;
        State(dots', Some(par), Some(circle), s.canvas, n, false)
  }

  /** `_redraw`: re-derives the parallelogram from the first three dots,
      moves the fourth dot to the derived vertex and the circle to the
      center with the new diameter. Before the third click there is no
      parallelogram and it throws without changing anything. */
  function Redraw(s: State, sqrt: real -> real): (r: Outcome)
    requires Wf(s)
    ensures Wf(r.state)
    ensures s.clicks < 3 ==> r == Outcome(s, Some(ParallelogramNotDefined))
    ensures s.clicks == 3 ==> r.fault.None? && Consistent(r.state, sqrt)
    ensures |r.state.dots| == |s.dots|
    ensures forall i :: 0 <= i < |s.dots| && i != 3 ==> r.state.dots[i] == s.dots[i]
    ensures r.state.canvas == s.canvas && r.state.clicks == s.clicks
  {
    if s.parallelogram.None? then Outcome(s, Some(ParallelogramNotDefined))
    else
      var g := CalculateGeometry(PartCoords(s), sqrt);
      var dot3 := s.dots[3].(round := Rounds.Redraw(s.dots[3].round, g.coords[3], None));
      var circle := Rounds.Redraw(s.circle.value, g.center, Some(DiameterFromSquare(g.square, sqrt)));
      var r := s.(parallelogram := Some(g), dots := s.dots[3 := dot3], circle := Some(circle));
      assert r.dots[..3] == s.dots[..3];
      Outcome(r, None)
  }

  /** Every dot rescaled per axis by new size over old size. */
  function ScaleDots(dots: seq<Dot>, sx: real, sy: real): (r: seq<Dot>)
    ensures |r| == |dots|
    ensures forall i :: 0 <= i < |dots| ==>
      && r[i].round.coords == ScaleAxes(dots[i].round.coords, sx, sy)
      && r[i].round.size == dots[i].round.size && r[i].dragstart == dots[i].dragstart
  {
    seq(|dots|, i requires 0 <= i < |dots| =>
      dots[i].(round := Rounds.Redraw(dots[i].round, ScaleAxes(dots[i].round.coords, sx, sy), None)))
  }

  /** The per-axis factors of a resize: new size over old size. */
  function FactorX(from: Size, to: Size): real
    requires from.width != 0.0
  {
    to.width / from.width
  }

  function FactorY(from: Size, to: Size): real
    requires from.height != 0.0
  {
    to.height / from.height
  }

  /** `_resize`: rescale every dot, take the new canvas size, then redraw
      (which throws before the third click, after the rescaling). */
  function OnResize(s: State, size: Size, sqrt: real -> real): (r: Outcome)
    requires Wf(s)
    requires size.width != 0.0 && size.height != 0.0
    ensures Wf(r.state) && Consistent(r.state, sqrt)
    ensures r.state.canvas == size
    ensures r.fault.Some? <==> s.clicks < 3
    ensures |r.state.dots| == |s.dots|
    ensures forall i :: 0 <= i < |s.dots| && i != 3 ==>
      r.state.dots[i].round.coords == ScaleAxes(s.dots[i].round.coords, FactorX(s.canvas, size), FactorY(s.canvas, size))
    ensures forall i :: 0 <= i < |s.dots| ==>
      r.state.dots[i].dragstart == s.dots[i].dragstart && r.state.dots[i].round.size == s.dots[i].round.size
  {
    var sx, sy := FactorX(s.canvas, size), FactorY(s.canvas, size);
    Redraw(s.(dots := ScaleDots(s.dots, sx, sy), canvas := size), sqrt)
  }

  /** `_destroy`: no dots, no parallelogram, no circle. */
  function Destroy(s: State): (r: State)
    ensures r.dots == [] && r.parallelogram.None? && r.circle.None?
    ensures r.canvas == s.canvas
  {
    s.(dots := [], parallelogram := None, circle := None)
  }

  /** `reset`: destroy, then run again with a fresh counter and handler. */
  function OnReset(s: State): (r: State)
    requires Wf(s)
    ensures r == Start(s.canvas)
  {
    Destroy(s).(clicks := 0, listening := true)
  }

  predicate IsMouse(e: Event) {
    e.MouseDown? || e.MouseUp? || e.MouseMoveOnDot? || e.MouseMoveOnCanvas?
  }

  /** What the handlers of dots 0 to 2 do with a mouse event: the dots
      afterwards and whether any of them dispatched `repaint`. The fourth
      dot never gets handlers, and a move over the canvas reaches every
      dragging dot through its `_mousemoveParent`. */
  function MouseOnDots(dots: seq<Dot>, e: Event): (r: (seq<Dot>, bool))
    requires |dots| == 4 && IsMouse(e)
    ensures |r.0| == 4 && r.0[3] == dots[3]
    ensures forall i :: 0 <= i < 4 ==> r.0[i].round.size == dots[i].round.size
    ensures !r.1 ==> forall i :: 0 <= i < 4 ==> r.0[i].round == dots[i].round
    ensures r.1 ==> exists i :: 0 <= i < 3 && dots[i].dragstart && r.0[i].dragstart
    ensures e.MouseDown? ==> !r.1 && forall i :: 0 <= i < 4 ==>
      r.0[i].round == dots[i].round && r.0[i].dragstart == (dots[i].dragstart || (i == e.dot && i < 3))
    ensures e.MouseUp? ==> !r.1 && forall i :: 0 <= i < 4 ==>
      r.0[i].round == dots[i].round && r.0[i].dragstart == (i == 3 && dots[3].dragstart)
    ensures e.MouseMoveOnDot? && e.dot < 3 ==>
      && r.0[e.dot] == Dots.MouseMove(dots[e.dot], e.offset).dot
      && r.1 == dots[e.dot].dragstart
      && forall j :: 0 <= j < 4 && j != e.dot ==> r.0[j] == dots[j]
  {
    match e
    case MouseDown(i) =>
      if i < 3 then (dots[i := Dots.MouseDown(dots[i])], false) else (dots, false)
    case MouseUp =>
      ([Dots.MouseUp(dots[0]), Dots.MouseUp(dots[1]), Dots.MouseUp(dots[2]), dots[3]], false)
    case MouseMoveOnDot(i, offset) =>
      if i < 3 then
        var m := Dots.MouseMove(dots[i], offset);
        (dots[i := m.dot], m.repaint)
      else (dots, false)
    case MouseMoveOnCanvas(offset) =>
      var m0 := Dots.MousemoveParent(dots[0], offset, true);
      var m1 := Dots.MousemoveParent(dots[1], offset, true);
      var m2 := Dots.MousemoveParent(dots[2], offset, true);
      ([m0.dot, m1.dot, m2.dot, dots[3]], m0.repaint || m1.repaint || m2.repaint)
  }

  /** The mouse events, which only reach the dots once the third click has
      installed their handlers; a repaint redraws the scene once. */
  function OnMouse(s: State, e: Event, sqrt: real -> real): (r: Outcome)
    requires Wf(s) && IsMouse(e)
    ensures Wf(r.state) && r.fault.None?
    ensures s.clicks < 3 ==> r.state == s
    ensures r.state.clicks == s.clicks && r.state.listening == s.listening
    ensures r.state.canvas == s.canvas && |r.state.dots| == |s.dots|
    ensures s.clicks == 3 && e.MouseDown? ==> forall i :: 0 <= i < 4 ==>
      r.state.dots[i].round == s.dots[i].round
      && r.state.dots[i].dragstart == (s.dots[i].dragstart || (i == e.dot && i < 3))
    ensures s.clicks == 3 && e.MouseUp? ==> forall i :: 0 <= i < 4 ==>
      r.state.dots[i].round == s.dots[i].round
      && r.state.dots[i].dragstart == (i == 3 && s.dots[3].dragstart)
  {
    if s.clicks < 3 then Outcome(s, None)
    else
      var m := MouseOnDots(s.dots, e);
      var t := s.(dots := m.0);
      if m.1 then Redraw(t, sqrt) else Outcome(t, None)
  }

  /** One event, as the browser delivers it. */
  function Step(s: State, e: Event, sqrt: real -> real): (r: Outcome)
    requires Wf(s) && Admissible(e)
    ensures Wf(r.state)
    ensures r.fault.Some? <==> e.Resize? && s.clicks < 3
  {
    match e
    case Click(at) => Outcome(OnClick(s, at, sqrt), None)
    case Resize(size) => OnResize(s, size, sqrt)
    case Reset => Outcome(OnReset(s), None)
    case _ => OnMouse(s, e, sqrt)
  }

  /** A sequence of events; a fault ends the handler, not the program. */
  function Run(s: State, es: seq<Event>, sqrt: real -> real): (r: State)
    requires Wf(s)
    requires forall i :: 0 <= i < |es| ==> Admissible(es[i])
    ensures Wf(r)
    decreases |es|
  {
    if |es| == 0 then s else Run(Step(s, es[0], sqrt).state, es[1..], sqrt)
  }

  // ------------------------------------------------------- consistency

  lemma SameFirstThree(s: State, t: State)
    requires |s.dots| >= 3 && |t.dots| >= 3
    requires forall i :: 0 <= i < 3 ==> s.dots[i].round.coords == t.dots[i].round.coords
    ensures PartCoords(s) == PartCoords(t)
  {
  }

  /** Changing only the dots' drag flags keeps the scene consistent. */
  lemma FlagsKeepConsistent(s: State, ds: seq<Dot>, sqrt: real -> real)
    requires Consistent(s, sqrt) && |ds| == |s.dots|
    requires forall i :: 0 <= i < |ds| ==> ds[i].round == s.dots[i].round
    ensures Consistent(s.(dots := ds), sqrt)
  {
    if s.clicks == 3 {
      SameFirstThree(s, s.(dots := ds));
    }
  }

  lemma ClickKeepsConsistent(s: State, at: Point, sqrt: real -> real)
    requires Wf(s) && Consistent(s, sqrt)
    ensures Consistent(OnClick(s, at, sqrt), sqrt)
  {
    var r := OnClick(s, at, sqrt);
    if s.listening && s.clicks == 2 {
      var dots := s.dots + [Dots.Create(at)];
      assert PartCoords(r) == CoordsOf(dots);
    }
  }

  lemma MouseKeepsConsistent(s: State, e: Event, sqrt: real -> real)
    requires Wf(s) && Consistent(s, sqrt) && IsMouse(e)
    ensures Consistent(OnMouse(s, e, sqrt).state, sqrt)
  {
    if s.clicks == 3 {
      var m := MouseOnDots(s.dots, e);
      if !m.1 {
        FlagsKeepConsistent(s, m.0, sqrt);
      }
    }
  }

  /** A move over the canvas while dragging: every dragging dot among the
      first three goes to the cursor, the others stay put, and the repaint
      leaves the scene consistent. */
  lemma DragOnCanvas(s: State, p: Point, sqrt: real -> real)
    requires Wf(s) && Consistent(s, sqrt) && s.clicks == 3
    ensures var r := OnMouse(s, MouseMoveOnCanvas(p), sqrt).state;
      && Consistent(r, sqrt)
      && forall i :: 0 <= i < 3 ==>
           && r.dots[i].dragstart == s.dots[i].dragstart
           && r.dots[i].round.coords == (if s.dots[i].dragstart then p else s.dots[i].round.coords)
  {
    MouseKeepsConsistent(s, MouseMoveOnCanvas(p), sqrt);
  }

  /** Every event keeps the scene consistent with its first three dots. */
  lemma StepKeepsConsistent(s: State, e: Event, sqrt: real -> real)
    requires Wf(s) && Admissible(e) && Consistent(s, sqrt)
    ensures Consistent(Step(s, e, sqrt).state, sqrt)
  {
    match e
    case Click(at) => ClickKeepsConsistent(s, at, sqrt);
    case Resize(size) =>
    case Reset =>
    case _ => MouseKeepsConsistent(s, e, sqrt);
  }

  /** From the start, any sequence of events leaves a consistent scene. */
  lemma {:induction false} RunKeepsConsistent(s: State, es: seq<Event>, sqrt: real -> real)
    requires Wf(s) && Consistent(s, sqrt)
    requires forall i :: 0 <= i < |es| ==> Admissible(es[i])
    ensures Consistent(Run(s, es, sqrt), sqrt)
    decreases |es|
  {
    if |es| > 0 {
      StepKeepsConsistent(s, es[0], sqrt);
      RunKeepsConsistent(Step(s, es[0], sqrt).state, es[1..], sqrt);
    }
  }

  // ------------------------------------------------------ the click protocol

  /** Running a sequence is running its first event, then the rest. */
  lemma RunFirst(s: State, e: Event, es: seq<Event>, sqrt: real -> real)
    requires Wf(s) && Admissible(e)
    requires forall i :: 0 <= i < |es| ==> Admissible(es[i])
    ensures Run(s, [e] + es, sqrt) == Run(Step(s, e, sqrt).state, es, sqrt)
  {
    assert ([e] + es)[1..] == es;
  }

  /** The first two clicks only add their dots. */
  lemma TwoClicks(canvas: Size, p0: Point, p1: Point, sqrt: real -> real)
    requires canvas.width != 0.0 && canvas.height != 0.0
    ensures OnClick(OnClick(Start(canvas), p0, sqrt), p1, sqrt)
      == State([Dots.Create(p0), Dots.Create(p1)], None, None, canvas, 2, true)
  {
    var s1 := OnClick(Start(canvas), p0, sqrt);
    assert s1 == State([Dots.Create(p0)], None, None, canvas, 1, true);
  }

  /** The third click builds the scene from the three dots. */
  lemma ThirdClick(canvas: Size, p0: Point, p1: Point, p2: Point, sqrt: real -> real)
    requires canvas.width != 0.0 && canvas.height != 0.0
    ensures var s := OnClick(State([Dots.Create(p0), Dots.Create(p1)], None, None, canvas, 2, true), p2, sqrt);
            var g := CalculateGeometry([p0, p1, p2], sqrt);
      && s.clicks == 3 && !s.listening
      && CoordsOf(s.dots) == [p0, p1, p2, g.coords[3]]
      && s.parallelogram == Some(g)
      && s.circle == Some(Round(g.center, DiameterFromSquare(g.square, sqrt)))
  {
    var dots := [Dots.Create(p0), Dots.Create(p1)] + [Dots.Create(p2)];
    assert dots == [Dots.Create(p0), Dots.Create(p1), Dots.Create(p2)];
    assert CoordsOf(dots) == [p0, p1, p2];
  }

  /** Three clicks are the three click handlers in turn. */
  lemma RunOfThreeClicks(canvas: Size, p0: Point, p1: Point, p2: Point, sqrt: real -> real)
    requires canvas.width != 0.0 && canvas.height != 0.0
    ensures Run(Start(canvas), [Click(p0), Click(p1), Click(p2)], sqrt)
      == OnClick(OnClick(OnClick(Start(canvas), p0, sqrt), p1, sqrt), p2, sqrt)
  {
    var s0 := Start(canvas);
    var s1 := OnClick(s0, p0, sqrt);
    var s2 := OnClick(s1, p1, sqrt);
    RunFirst(s0, Click(p0), [Click(p1), Click(p2)], sqrt);
    assert [Click(p0)] + [Click(p1), Click(p2)] == [Click(p0), Click(p1), Click(p2)];
    RunFirst(s1, Click(p1), [Click(p2)], sqrt);
    assert [Click(p1)] + [Click(p2)] == [Click(p1), Click(p2)];
    RunFirst(s2, Click(p2), [], sqrt);
    assert [Click(p2)] + [] == [Click(p2)];
  }

  /** Three clicks from the start place the three dots where clicked, the
      fourth on the derived vertex, and the circle of equal area on the
      center, and detach the click handler. */
  lemma ThreeClicksBuildTheScene(canvas: Size, p0: Point, p1: Point, p2: Point, sqrt: real -> real)
    requires canvas.width != 0.0 && canvas.height != 0.0
    ensures var s := Run(Start(canvas), [Click(p0), Click(p1), Click(p2)], sqrt);
            var g := CalculateGeometry([p0, p1, p2], sqrt);
      && s.clicks == 3 && !s.listening
      && CoordsOf(s.dots) == [p0, p1, p2, g.coords[3]]
      && s.parallelogram == Some(g)
      && s.circle == Some(Round(g.center, DiameterFromSquare(g.square, sqrt)))
  {
    RunOfThreeClicks(canvas, p0, p1, p2, sqrt);
    TwoClicks(canvas, p0, p1, sqrt);
    ThirdClick(canvas, p0, p1, p2, sqrt);
  }

  /** Once the third click has detached the handler, clicks change nothing. */
  lemma {:induction false} LaterClicksIgnored(s: State, es: seq<Event>, sqrt: real -> real)
    requires Wf(s) && s.clicks == 3
    requires forall i :: 0 <= i < |es| ==> es[i].Click?
    ensures Run(s, es, sqrt) == s
    decreases |es|
  {
    if |es| > 0 {
      LaterClicksIgnored(s, es[1..], sqrt);
    }
  }

  /** The page as the listener model sees it: the click listener a state
      has attached, as the counter it closes over (one while the protocol
      runs, none once the third click has detached it), and the number of
      dots. */
  function PageOf(s: State): ClickListeners.Page {
    ClickListeners.Page(if s.listening then [s.clicks] else [], |s.dots|)
  }

  /** The click handler is the listener model's click: the counter it keeps
      is `clicks`, it adds the clicked dot while attached, and on the third
      click it detaches and adds the fourth-vertex dot too. Nothing throws,
      since the third click always finds three dots. */
  lemma ClickIsListenerClick(s: State, at: Point, sqrt: real -> real)
    requires Wf(s)
    ensures var k := ClickListeners.Click(PageOf(s));
      PageOf(OnClick(s, at, sqrt)) == k.page && k.throws == 0
  {
    var r := OnClick(s, at, sqrt);
    if s.listening {
      assert r.clicks == s.clicks + 1 && Wf(r);
      ClickListeners.SingleListener(s.clicks);
    } else {
      assert ClickListeners.Click(PageOf(s)) == ClickListeners.Delivered(PageOf(s), 0);
    }
  }

  /** `OnReset` is the corrected reset of the listener model. */
  lemma ResetIsCorrectedReset(s: State)
    requires Wf(s)
    ensures PageOf(OnReset(s)) == ClickListeners.ResetCorrected(PageOf(s))
  {
  }

  // ------------------------------------------------------------- redraw

  /** Redrawing a consistent scene changes nothing. */
  lemma RedrawOfConsistentIsFixpoint(s: State, sqrt: real -> real)
    requires Wf(s) && Consistent(s, sqrt) && s.clicks == 3
    ensures Redraw(s, sqrt) == Outcome(s, None)
  {
    var r := Redraw(s, sqrt).state;
    assert r.dots[3] == s.dots[3];
    assert r.dots == s.dots;
  }

  /** A second redraw has nothing left to do. */
  lemma RedrawIdempotent(s: State, sqrt: real -> real)
    requires Wf(s)
    ensures Redraw(Redraw(s, sqrt).state, sqrt) == Redraw(s, sqrt)
  {
    if s.clicks == 3 {
      RedrawOfConsistentIsFixpoint(Redraw(s, sqrt).state, sqrt);
    }
  }

  // ------------------------------------------------------------- resize

  lemma DivSelf(w: real)
    requires w != 0.0
    ensures w / w == 1.0
  {
  }

  /** Scaling by one on both axes leaves the dots as they are. */
  lemma ScaleDotsByOne(dots: seq<Dot>)
    ensures ScaleDots(dots, 1.0, 1.0) == dots
  {
    var r := ScaleDots(dots, 1.0, 1.0);
    forall i | 0 <= i < |dots|
      ensures r[i] == dots[i]
    {
      assert ScaleAxes(dots[i].round.coords, 1.0, 1.0) == dots[i].round.coords;
    }
  }

  /** A resize to the current size leaves a consistent scene as it is. */
  lemma ResizeToSameSize(s: State, sqrt: real -> real)
    requires Wf(s) && Consistent(s, sqrt)
    ensures OnResize(s, s.canvas, sqrt).state == s
  {
    DivSelf(s.canvas.width);
    DivSelf(s.canvas.height);
    assert FactorX(s.canvas, s.canvas) == 1.0 && FactorY(s.canvas, s.canvas) == 1.0;
    ScaleDotsByOne(s.dots);
    assert OnResize(s, s.canvas, sqrt) == Redraw(s, sqrt);
    if s.clicks == 3 {
      RedrawOfConsistentIsFixpoint(s, sqrt);
    }
  }

  /** A complete scene after a resize is the one built from the rescaled
      first three dots. */
  lemma ResizeRebuilds(s: State, size: Size, sqrt: real -> real)
    requires Wf(s) && s.clicks == 3
    requires size.width != 0.0 && size.height != 0.0
    ensures var sx, sy := FactorX(s.canvas, size), FactorY(s.canvas, size);
            var r := OnResize(s, size, sqrt).state;
      && (forall i :: 0 <= i < 3 ==> r.dots[i].round.coords == ScaleAxes(s.dots[i].round.coords, sx, sy))
      && r.parallelogram == Some(CalculateGeometry(ScaleAll(PartCoords(s), sx, sy), sqrt))
      && r.dots[3].round.coords == r.parallelogram.value.coords[3]
  {
    var sx, sy := FactorX(s.canvas, size), FactorY(s.canvas, size);
    var t := s.(dots := ScaleDots(s.dots, sx, sy), canvas := size);
    var r := Redraw(t, sqrt).state;
    assert PartCoords(t) == ScaleAll(PartCoords(s), sx, sy);
    SameFirstThree(r, t);
  }

  /** After a resize every dot, the fourth included, sits at its old
      position scaled per axis. This holds before the third click too: the
      dots are rescaled before `_redraw` throws, so the third click later
      builds from the rescaled dots. */
  lemma ResizeScalesDots(s: State, size: Size, sqrt: real -> real)
    requires Wf(s) && Consistent(s, sqrt)
    requires size.width != 0.0 && size.height != 0.0
    ensures var sx, sy := FactorX(s.canvas, size), FactorY(s.canvas, size);
            var r := OnResize(s, size, sqrt).state;
      && |r.dots| == |s.dots|
      && forall i :: 0 <= i < |s.dots| ==> r.dots[i].round.coords == ScaleAxes(s.dots[i].round.coords, sx, sy)
  {
    if s.clicks == 3 {
      var sx, sy := FactorX(s.canvas, size), FactorY(s.canvas, size);
      ResizeRebuilds(s, size, sqrt);
      ScalingCommutes(PartCoords(s), sx, sy);
    }
  }
}

=== FILE: sorting.dfy ===
/** The ascending numeric sort that `_findSpace` applies to the x and the y
    values of the four vertices (`sort((a, b) => a - b)`). The sort is
    modelled by insertion; `SortedUnique` shows that any algorithm returning
    a sorted permutation returns this same sequence. */
module Sorting {

  predicate Sorted(s: seq<real>) {
    forall i, j :: 0 <= i <= j < |s| ==> s[i] <= s[j]
  }

  /** Puts `v` before the first element it does not exceed. */
  function Insert(v: real, s: seq<real>): seq<real> {
    if |s| == 0 then [v]
    else if v <= s[0] then [v] + s
    else [s[0]] + Insert(v, s[1..])
  }

  /** Insertion into a sorted sequence keeps it sorted. */
  lemma {:induction false} InsertSorted(v: real, s: seq<real>)
    requires Sorted(s)
    ensures Sorted(Insert(v, s))
    decreases |s|
  {
    if |s| > 0 && v > s[0] {
      var rest := Insert(v, s[1..]);
      TailOfSorted(s);
      InsertSorted(v, s[1..]);
      InsertMembers(v, s[1..]);
      forall x | x in s[1..]
        ensures s[0] <= x
      {
        var k :| 0 <= k < |s| - 1 && s[1..][k] == x;
        assert s[1..][k] == s[k + 1];
      }
      ConsSorted(s[0], rest);
    } else if |s| > 0 {
      forall x | x in s
        ensures v <= x
      {
        var k :| 0 <= k < |s| && s[k] == x;
      }
      ConsSorted(v, s);
    }
  }

  /** Insertion adds exactly `v` to the values held. */
  lemma {:induction false} InsertPerm(v: real, s: seq<real>)
    ensures multiset(Insert(v, s)) == multiset(s) + multiset{v}
    decreases |s|
  {
    if |s| > 0 && v > s[0] {
      InsertPerm(v, s[1..]);
      assert s == [s[0]] + s[1..];
    }
  }

  /** The members after an insertion are `v` and the members before it. */
  lemma {:induction false} InsertMembers(v: real, s: seq<real>)
    ensures forall x :: x in Insert(v, s) <==> x == v || x in s
    decreases |s|
  {
    if |s| > 0 && v > s[0] {
      InsertMembers(v, s[1..]);
      assert s == [s[0]] + s[1..];
    }
  }

  /** Putting a lower bound of a sorted sequence in front keeps it sorted. */
  lemma ConsSorted(x: real, t: seq<real>)
    requires Sorted(t)
    requires forall y :: y in t ==> x <= y
    ensures Sorted([x] + t)
  {
    forall i, j | 0 <= i <= j < |t| + 1
      ensures ([x] + t)[i] <= ([x] + t)[j]
    {
      if 0 < i {
        assert ([x] + t)[i] == t[i - 1] && ([x] + t)[j] == t[j - 1];
      } else if 0 < j {
        assert ([x] + t)[j] == t[j - 1];
        assert t[j - 1] in t;
      }
    }
  }

  /** Insertion sort, from the last element forwards. */
  function Sort(s: seq<real>): seq<real> {
    if |s| == 0 then [] else Insert(s[0], Sort(s[1..]))
  }

  /** The sort returns a sorted permutation of its input. */
  lemma {:induction false} SortSorted(s: seq<real>)
    ensures Sorted(Sort(s))
    ensures multiset(Sort(s)) == multiset(s)
    decreases |s|
  {
    if |s| > 0 {
      SortSorted(s[1..]);
      InsertSorted(s[0], Sort(s[1..]));
      InsertPerm(s[0], Sort(s[1..]));
      HeadTail(s);
    }
  }

  /** Two sorted sequences holding the same values are equal. */
  lemma {:induction false} SortedUnique(a: seq<real>, b: seq<real>)
    requires Sorted(a) && Sorted(b)
    requires multiset(a) == multiset(b)
    ensures a == b
    decreases |a|
  {
    assert |a| == |multiset(a)| == |multiset(b)| == |b|;
    if |a| > 0 {
      SameHead(a, b);
      TailOfSorted(a);
      TailOfSorted(b);
      SortedUnique(a[1..], b[1..]);
      Recons(a, b);
    }
  }

  /** Sorted sequences with the same values start with the same value and
      hold the same values after it. */
  lemma SameHead(a: seq<real>, b: seq<real>)
    requires Sorted(a) && Sorted(b) && |a| > 0 && |b| > 0
    requires multiset(a) == multiset(b)
    ensures a[0] == b[0]
    ensures multiset(a[1..]) == multiset(b[1..])
  {
    assert b[0] in multiset(a) && a[0] in multiset(b);
    FirstIsLeast(a, b[0]);
    FirstIsLeast(b, a[0]);
    HeadTail(a);
    HeadTail(b);
    CancelOne(a[0], multiset(a[1..]), multiset(b[1..]));
  }

  lemma Recons(a: seq<real>, b: seq<real>)
    requires |a| > 0 && |b| > 0 && a[0] == b[0] && a[1..] == b[1..]
    ensures a == b
  {
    assert a == [a[0]] + a[1..];
    assert b == [b[0]] + b[1..];
  }

  lemma HeadTail(a: seq<real>)
    requires |a| > 0
    ensures multiset(a) == multiset{a[0]} + multiset(a[1..])
  {
    assert a == [a[0]] + a[1..];
  }

  lemma CancelOne(x: real, m1: multiset<real>, m2: multiset<real>)
    requires multiset{x} + m1 == multiset{x} + m2
    ensures m1 == m2
  {
    assert m1 == (multiset{x} + m1) - multiset{x};
    assert m2 == (multiset{x} + m2) - multiset{x};
  }

  /** The head of a sorted sequence bounds each of its values from below. */
  lemma FirstIsLeast(a: seq<real>, e: real)
    requires Sorted(a) && e in a
    ensures a[0] <= e
  {
    var k :| 0 <= k < |a| && a[k] == e;
  }

  lemma TailOfSorted(a: seq<real>)
    requires Sorted(a) && |a| > 0
    ensures Sorted(a[1..])
  {
    forall i, j | 0 <= i <= j < |a| - 1
      ensures a[1..][i] <= a[1..][j]
    {
      assert a[1..][i] == a[i + 1] && a[1..][j] == a[j + 1];
    }
  }

  /** The first element of the sort is the minimum of the input and the last
      one is its maximum; both are input values. */
  lemma SortBounds(s: seq<real>)
    requires |s| > 0
    ensures |Sort(s)| == |s|
    ensures Sort(s)[0] in s && Sort(s)[|s| - 1] in s
    ensures forall i :: 0 <= i < |s| ==> Sort(s)[0] <= s[i] <= Sort(s)[|s| - 1]
  {
    SortSorted(s);
    var r := Sort(s);
    assert |r| == |multiset(r)| == |multiset(s)| == |s|;
    assert r[0] in multiset(s);
    assert r[|r| - 1] in multiset(s);
    forall i | 0 <= i < |s|
      ensures r[0] <= s[i] <= r[|s| - 1]
    {
      assert s[i] in multiset(r);
      var k :| 0 <= k < |r| && r[k] == s[i];
    }
  }
}
